=== FILE: README.md ===
# Ultimate Tic-Tac-Toe bot: decision core in Dafny

A Dafny model of the decision core of a Go bot for Ultimate Tic-Tac-Toe
(`ultimate.go`). In this game nine 3×3 sub-boards are laid out as a 3×3
meta-board. The cell a player marks decides the sub-board the other player
must play in next. The model covers:

- win detection on one sub-board (`findWinner`) and on the meta-board of
  sub-board winners (`findWinnerUltimate`);
- move generation under the forced-sub-board rule (`nextBoards`, `player`,
  `possibleUltimateState`, `findNextPossibilitiesUltimate`);
- leaf evaluation (`scoreGameState`);
- depth-bounded alpha-beta search (`setResult`, `alphaBeta`) and move
  selection (`play`);
- translation between 9×9 grid positions and (sub-board, cell) moves
  (`moveUltimate`, `convertCoordinate`, `computeMove`).

Files and modules:

| file | module | contents |
|---|---|---|
| `boards.dfy` | `Boards` | cells, 3×3 boards, the eight-line win check, `FindWinner`, cell counting |
| `scores.dfy` | `Scores` | scores as integers extended with ±infinity, with max, min and order |
| `ultimate.dfy` | `Ultimate` | the ultimate board, the search node, meta-board winner, move generation |
| `search.dfy` | `Search` | evaluation, `AlphaBeta` with its two successor loops, `Play` |
| `coordinates.dfy` | `Coordinates` | Go's truncating `/` and `%`, grid/move conversion, `MoveUltimate` |

How the program is modelled:

- Boards are sequences of exactly nine cells, and the ultimate board is nine
  boards (subset types), matching Go's fixed arrays.
- A search node is an immutable `UltimateState`. Its `bestMove` is an
  `Option` holding a copy of the chosen successor, instead of a pointer.
- `alphaBeta` mutates its node through a pointer. Here `AlphaBeta` is a pure
  function that returns the updated node. The two `for` loops over the
  successors are the mutually recursive functions `MaxLoop` and `MinLoop`.
  `SearchScore` is the score a successor's own search produces. As in Go,
  each successor is searched as a copy, and only that score reaches the loop.
- Termination rests on the number of empty cells, which every move reduces.
  It does not rest on `depth`, so a negative depth (which the program never
  passes) is covered too.
- The functions the search unfolds (`FindWinner`, `FindWinnerUltimate`,
  `NextBoards`, `PossibleUltimateState`, `FindNextPossibilitiesUltimate`,
  `ScoreGameState`, `AlphaBeta` and its loops) carry no contract of their
  own, which keeps each unfolding cheap for the verifier. Smaller functions
  (`Player`, `Tally`, `SetResult`, `MoveUltimate`, `ConvertCoordinate`, …)
  carry theirs directly. What the unfolded functions compute is stated by
  lemmas named after them (`FindWinnerSpec`, `NextBoardsSpec`,
  `PossibleUltimateStateSpec`, `NextPossibilitiesSpec`, `AlphaBetaShape`, …).
  Each of these relates the computation to an independent definition:
  - the geometric `Wins` (a full row, column or diagonal);
  - the meta-board `MetaBoard`;
  - the placement relation `Places` and the forced-sub-board relation
    `Successor`;
  - the generation order `Rank`;
  - empty-cell counts.

Three behaviours of the code as written are stated and proved as they are:

- **The evaluation is always 0.** In `scoreGameState` the loop variable `b`
  shadows the board declared just before the loop. Each sub-board winner is
  written into a loop-local copy, and the empty board is what gets tallied
  (`ScoreGameStateIsZero`, `ScoreIgnoresSubBoardWinners`). This rests on
  reading Go's scoping at ultimate.go:111-113: `b := ultimateBoard[i]` inside
  the loop declares a new local. The model encodes that reading directly, so
  `ShadowedFill` never reads the sub-boards; the lemmas only record that the
  board declared before the loop reaches the tally untouched.
- **Scores are written back only on a cutoff.** A node whose successor loop
  runs to the end keeps the score it inherited from its parent
  (`AlphaBetaShape`). The successor loop folds each child's score into the
  running value and into alpha (or beta) and hands both on to the next
  child; a cutoff happens exactly at the first successor after which
  `alpha >= beta`, and the node records that successor with the running value
  there (`MaxNodeOutcome`, `MinNodeOutcome`). At the root, with alpha = -infinity and beta = +infinity
  and a score in [-10, 10], no cutoff can happen (`AlphaBetaOpenWindow`,
  `RootNeverCuts`). `play` on a node without a best move therefore always
  takes the random fallback (`Play`).
- **A full forced sub-board yields no successors,** even when other
  sub-boards still have empty cells (`FullForcedBoardHasNoSuccessors`). A won
  but not full forced sub-board is still played in
  (`WonForcedBoardStillPlayed`).

`checkWinner`, `emptyBoard`, the `Board` type and the cell constants `EMPTY`,
`SELF` and `OPPONENT` are defined outside `ultimate.go` and are not part of
this model's source. They are defined minimally, as assumptions:

- three distinct cell values;
- `emptyBoard` is nine empty cells;
- `checkWinner(p, b)` is the standard check of the eight lines. It is written
  as an explicit disjunction of the eight lines and proved equal to the
  geometric definition `Wins` (`CheckWinnerIsWins`).

## Model

| member | source | states |
|---|---|---|
| `Boards.CheckWinnerIsWins` | ultimate.go:36-44 | the assumed eight-line `checkWinner` that `findWinner` calls holds exactly when the player fills a row, a column or a diagonal |
| `Boards.FindWinner` | ultimate.go:36-44 | computed; its contract is stated by `Boards.FindWinnerSpec` |
| `Boards.FindWinnerSpec` | ultimate.go:36-44 | SELF is reported exactly when SELF has a line, even if OPPONENT has one too; OPPONENT exactly when OPPONENT has a line and SELF has none; no winner otherwise |
| `Ultimate.EmptyUltimateBoard` | ultimate.go:26-34 | every cell of every sub-board is empty |
| `Ultimate.FillWinnersSpec` | ultimate.go:50-53 | the loop leaves the cells before `i` alone and sets every later meta-board cell to the winner of the matching sub-board |
| `Ultimate.FindWinnerUltimate` | ultimate.go:49-55 | computed; its contract is stated by `Ultimate.FindWinnerUltimateSpec` |
| `Ultimate.FindWinnerUltimateSpec` | ultimate.go:49-55 | the ultimate winner is `findWinner` of the meta-board of sub-board winners: SELF exactly when SELF holds a line of won sub-boards, OPPONENT exactly when OPPONENT does and SELF does not |
| `Ultimate.Player` | ultimate.go:71-77 | the side to move never plays EMPTY, and plays SELF exactly when it is SELF's turn |
| `Ultimate.NextBoardsFromSpec` | ultimate.go:59-67 | from cell `i` on, one board and one coordinate per empty cell, in ascending order, every empty cell listed, each board the input with that cell marked |
| `Ultimate.NextBoards` | ultimate.go:57-69 | computed; its contract is stated by `Ultimate.NextBoardsSpec` |
| `Ultimate.NextBoardsSpec` | ultimate.go:57-69 | both lists have as many entries as the board has empty cells; coordinates strictly ascend and cover every empty cell; board k is the input with cell `coordinates[k]` marked by the player |
| `Ultimate.CloneIsMark` | ultimate.go:83-88 | the clone with the marked sub-board, flipped turn, new last move and no best move is the placement of one mark on the original board |
| `Ultimate.PossibleUltimateState` | ultimate.go:79-91 | computed; its contract is stated by `Ultimate.PossibleUltimateStateSpec` |
| `Ultimate.PossibleUltimateStateSpec` | ultimate.go:79-91 | one successor per empty cell of the sub-board, each a placement in that sub-board, in ascending cell order, with every empty cell covered |
| `Ultimate.FreeChoiceSpec` | ultimate.go:95-100 | without a last move the successors of sub-boards k..8 are concatenated in order: every placement there appears once, in ascending (sub-board, cell) order |
| `Ultimate.FindNextPossibilitiesUltimate` | ultimate.go:93-108 | computed; its contract is stated by `Ultimate.NextPossibilitiesSpec` and the counting lemmas below |
| `Ultimate.NextPossibilitiesSpec` | ultimate.go:93-108 | the successors are exactly the legal placements under the forced-sub-board rule, in ascending (sub-board, cell) order, none repeated |
| `Ultimate.NextElementIsSuccessor` | ultimate.go:83-88 | each generated successor is a legal placement that inherits its parent's score and has exactly one empty cell fewer |
| `Ultimate.PlacementChangesOneCell` | ultimate.go:83-88 | a successor flips the turn, has no best move, copies the score, and differs from its parent only in the played cell, which was empty and now holds the mover's mark |
| `Ultimate.PlacesFillsACell` | ultimate.go:61-63 | every placement removes exactly one empty cell from the whole board |
| `Ultimate.FreeChoiceCount` | ultimate.go:95-100 | without a last move there are as many successors as empty cells on the whole board |
| `Ultimate.ForcedChoiceCount` | ultimate.go:101-106 | after a move there are as many successors as empty cells in sub-board `lastMove.coordinate` |
| `Ultimate.NextCountIgnoresScore` | ultimate.go:93-108 | the number of successors depends only on the board and the last move, not on the score or best move |
| `Ultimate.FirstMoveHas81Successors` | ultimate.go:93-100 | on the board of `emptyUltimateBoard` with no last move there are 81 successors |
| `Ultimate.FullForcedBoardHasNoSuccessors` | ultimate.go:101-106 | a full forced sub-board yields no successors, whatever the other sub-boards hold |
| `Ultimate.SingleEmptyCellHasOneSuccessor` | ultimate.go:101-106 | a forced sub-board with one empty cell yields exactly the move to that cell |
| `Ultimate.WonForcedBoardStillPlayed` | ultimate.go:101-106 | the forced sub-board's winner is not checked: a won sub-board with an empty cell still yields a successor |
| `Search.Tally` | ultimate.go:115-122 | the tally is the number of SELF cells minus the number of OPPONENT cells; for n cells it lies in [-n, n] and is 0 when all are empty |
| `Search.ShadowedFillKeepsBoard` | ultimate.go:111-114 | the board declared at :111 passes through the first loop of `scoreGameState` unchanged; the model's loop never reads the sub-boards, encoding the reading that `b :=` at :112 declares a loop-local board, so this records the pass-through rather than deriving the shadowing |
| `Search.ScoreGameState` | ultimate.go:110-124 | computed; its contract is stated by `Search.ScoreGameStateIsZero` |
| `Search.ScoreGameStateIsZero` | ultimate.go:110-124 | the evaluation is 0 for every ultimate board |
| `Search.ScoreIgnoresSubBoardWinners` | ultimate.go:110-124 | even when every sub-board is won by SELF (meta-board tally 9) the evaluation is 0 |
| `Search.SetResult` | ultimate.go:127-130 | only the score and best move change: the score is the given one and the best move is cleared |
| `Search.AlphaBetaTerminal` | ultimate.go:134-144 | in this order: a SELF ultimate win scores 10, an OPPONENT win -10, depth 0 the evaluation (0), no successors 0, each clearing the best move |
| `Search.AlphaBeta` | ultimate.go:133-172 | computed; its contract is stated by `Search.AlphaBetaTerminal`, `Search.AlphaBetaShape`, `Search.FirstSuccessorClosingCuts`, `Search.ClosedWindowCutsAtFirst`, `Search.MaxNodeOutcome`, `Search.MinNodeOutcome`, `Search.AlphaBetaInRange` and `Search.AlphaBetaOpenWindow` |
| `Search.MaxLoop` | ultimate.go:146-156 | computed; its contract is stated by `Search.MaxLoopShape` (a cut implies a closed window), `Search.MaxLoopCutsWhenClosed` (a closed window implies a cut), `Search.MaxLoopFromPrefix` and `Search.MaxLoopOutcome` (the values handed from child to child), `Search.MaxLoopInRange` and `Search.MaxLoopOpen` |
| `Search.MinLoop` | ultimate.go:159-169 | computed; its contract is stated by `Search.MinLoopShape` (a cut implies a closed window), `Search.MinLoopCutsWhenClosed` (a closed window implies a cut), `Search.MinLoopFromPrefix` and `Search.MinLoopOutcome` (the values handed from child to child), `Search.MinLoopInRange` and `Search.MinLoopOpen` |
| `Search.AlphaBetaShape` | ultimate.go:133-172 | only the score and best move change; an expanded node comes back unchanged or with a cutoff recorded at one of its successors, whose score closes the window (`max(alpha, score) >= beta` for SELF, `alpha >= min(beta, score)` for OPPONENT); any other node loses its best move |
| `Search.MaxLoopShape` | ultimate.go:146-156 | the maximising loop either leaves the node alone or records a generated successor with a score at least the incoming running value, and large enough that `alpha >= beta` once it is folded into alpha |
| `Search.MinLoopShape` | ultimate.go:159-169 | the minimising loop either leaves the node alone or records a generated successor with a score at most the incoming running value, and small enough that `alpha >= beta` once it is folded into beta |
| `Search.MaxLoopCutsWhenClosed` | ultimate.go:149-155 | when folding successor `i`'s score into alpha gives `alpha >= beta`, the loop stops there and records that successor with the running maximum as the node's score |
| `Search.MinLoopCutsWhenClosed` | ultimate.go:162-168 | when folding successor `i`'s score into beta gives `alpha >= beta`, the loop stops there and records that successor with the running minimum as the node's score |
| `Search.MaxLoopFromPrefix` | ultimate.go:146-156 | while no window has closed, the maximising loop after `i` successors is the loop from successor `i` entered with the folded alpha and running maximum of the first `i` children's scores, each child searched with the alpha folded so far |
| `Search.MinLoopFromPrefix` | ultimate.go:159-169 | while no window has closed, the minimising loop after `i` successors is the loop from successor `i` entered with the folded beta and running minimum of the first `i` children's scores, each child searched with the beta folded so far |
| `Search.MaxLoopOutcome` | ultimate.go:146-156 | the maximising loop returns the node unchanged when the folded alpha never reaches beta, and otherwise records the first successor after which it does, with the running maximum there |
| `Search.MinLoopOutcome` | ultimate.go:159-169 | the minimising loop returns the node unchanged when the folded beta never falls to alpha, and otherwise records the first successor after which it does, with the running minimum there |
| `Search.MaxNodeOutcome` | ultimate.go:133-172 | an expanded SELF node comes back unchanged when the folded alpha never reaches beta over its successors, and otherwise cuts off at the first successor after which it does, recording it with the running maximum there |
| `Search.MinNodeOutcome` | ultimate.go:133-172 | an expanded OPPONENT node comes back unchanged when the folded beta never falls to alpha over its successors, and otherwise cuts off at the first successor after which it does, recording it with the running minimum there |
| `Search.FirstSuccessorClosingCuts` | ultimate.go:145-170 | at an expanded node, a first successor whose score closes the window (`max(alpha, score) >= beta` for SELF, `alpha >= min(beta, score)` for OPPONENT) is recorded at once with that score, the rest of the node unchanged |
| `Search.ClosedWindowCutsAtFirst` | ultimate.go:145-170 | an expanded node entered with `alpha >= beta` always cuts off at its first successor, on either side |
| `Search.AlphaBetaInRange` | ultimate.go:133-172 | a node entering with a score in [-10, 10] leaves with a score in [-10, 10] |
| `Search.MaxLoopInRange` | ultimate.go:146-156 | the running maximum of children's scores stays in [-10, 10] |
| `Search.MinLoopInRange` | ultimate.go:159-169 | the running minimum of children's scores stays in [-10, 10] |
| `Search.AlphaBetaOpenWindow` | ultimate.go:145-170 | with a node score in [-10, 10] and beta = +infinity at a maximising node, or alpha = -infinity at a minimising one, no cutoff happens and an expanded node is returned as it came |
| `Search.MaxLoopOpen` | ultimate.go:146-156 | with beta = +infinity and a node score in [-10, 10], which every child's search keeps, `alpha >= beta` never holds |
| `Search.MinLoopOpen` | ultimate.go:159-169 | with alpha = -infinity and a node score in [-10, 10], which every child's search keeps, `alpha >= beta` never holds |
| `Search.RootNeverCuts` | ultimate.go:133-172 | searched from the root window with a score in [-10, 10], an expanded node keeps its best move and any other node loses it, so the search never picks one |
| `Search.BestMoveIsUnsearched` | ultimate.go:151-155 | a newly recorded best move is a legal successor with the parent's incoming score and no best move of its own, not the searched copy |
| `Search.Play` | ultimate.go:174-190 | the caller's node is left searched: same position, a terminal root scored in [-10, 10] without a best move, an expanded root with a score in [-10, 10] unchanged; without a best move on entry, no move exactly when there is no successor, otherwise a legal successor of the searched node; with a score in [-10, 10] it is always the random fallback; a stale best move of an expanded node is returned as is |
| `Coordinates.GoDivMod` | ultimate.go:193-197 | Go's `/` and `%` truncate toward zero: `a = d*q + m` with `abs(m) < d` and `m` never of the opposite sign to `a` |
| `Coordinates.ComputeMove` | ultimate.go:208-212 | computed; its contract is stated by `Coordinates.GridRoundTrip` and `Coordinates.MoveRoundTrip` |
| `Coordinates.GridMove` | ultimate.go:193-197 | computed; its contract is stated by `Coordinates.GridRoundTrip`, `Coordinates.MoveRoundTrip` and `Coordinates.OffGridPositionAliases` |
| `Coordinates.ConvertCoordinate` | ultimate.go:204-206 | the (column, row) pair recombines to the index as `3*row + column`, within the 3×3 grid for indices 0..8 |
| `Coordinates.MoveUltimate` | ultimate.go:192-202 | the computed cell becomes the mover's mark, every other cell is unchanged, the turn flips, the move is recorded, the best move is cleared, the score is kept |
| `Coordinates.GridRoundTrip` | ultimate.go:192-212 | for row and column in 0..8 the computed sub-board and cell are in 0..8 and `computeMove` gives the position back |
| `Coordinates.MoveRoundTrip` | ultimate.go:192-212 | every (sub-board, cell) in 0..8 has a grid position from which `moveUltimate` computes the same move back |
| `Coordinates.OffGridPositionAliases` | ultimate.go:193-197 | with truncating division the off-grid position (-1, 4) is accepted and marks the same cell as (2, 3) |
| `Coordinates.MoveUltimateIsMark` | ultimate.go:192-202 | applying a move on the grid is the same placement the move generator makes |
| `Coordinates.MoveUltimateIsGenerated` | ultimate.go:192-202 | the opponent's move is among the generated successors exactly when its sub-board is allowed and its cell is empty |

## Left out

- `runUltimate` (ultimate.go:214-246) reads moves from standard input and prints the chosen move. It is I/O and is not modelled. It never stores the bot's chosen move back into its state, so the bot's own moves are never recorded; that is the driver's behaviour, not the core's.
- The random choice `rand.Int31n` in `play` is modelled as an arbitrary choice of index (`:|`). The contract holds for every choice.
- Scores are `float64` in the program. Every score it writes is 10, -10, 0 or an inherited value, and the infinities appear only as the initial alpha, beta and running value. They are modelled as integers extended with ±infinity; NaN and rounding do not arise.
- Pointers: `bestMove` points into the successor slice, and `alphaBeta` and `play` update their node in place. The model returns the updated node (`Play` returns it next to the move) and stores a copy of the unsearched successor, which holds the same values.
- Go panics are preconditions:
  - indexing the sub-board named by `lastMove.coordinate` (`ValidLastMove`);
  - the cell computed by `moveUltimate` (`OnBoard`).
- `checkWinner`, `emptyBoard`, `Board` and the cell constants are defined outside `ultimate.go`. They are modelled by the assumed definitions described above.

=== FILE: boards.dfy ===
/**
  Cells and 3×3 boards of Ultimate Tic-Tac-Toe, and win detection on a single
  board.

  The cell constants, the board type, `emptyBoard` and `checkWinner` are
  defined outside the modelled file. They are defined minimally here: three
  distinct cell values, a board of exactly nine cells, and `checkWinner` as the
  standard check of the eight lines (three rows, three columns, two diagonals).
 */
module Boards {

  /** The value of one cell. `Empty` doubles as "no winner". */
  datatype Cell = Empty | Self | Opponent

  /** A 3×3 board in row-major order: cell `3 * row + col`. */
  type Board = b: seq<Cell> | |b| == 9
    witness [Empty, Empty, Empty, Empty, Empty, Empty, Empty, Empty, Empty]

  /** Nine empty cells (assumed definition of `emptyBoard`). */
  function EmptyBoard(): (b: Board)
    ensures forall i :: 0 <= i < 9 ==> b[i] == Empty
  {
    [Empty, Empty, Empty, Empty, Empty, Empty, Empty, Empty, Empty]
  }

  /** `p` holds the three cells `x`, `y`, `z` of `b`. */
  predicate Line(p: Cell, b: Board, x: nat, y: nat, z: nat)
    requires x < 9 && y < 9 && z < 9
  {
    b[x] == p && b[y] == p && b[z] == p
  }

  /** Assumed definition of `checkWinner`: the eight lines, listed explicitly. */
  predicate CheckWinner(p: Cell, b: Board) {
    || Line(p, b, 0, 1, 2) || Line(p, b, 3, 4, 5) || Line(p, b, 6, 7, 8)
    || Line(p, b, 0, 3, 6) || Line(p, b, 1, 4, 7) || Line(p, b, 2, 5, 8)
    || Line(p, b, 0, 4, 8) || Line(p, b, 2, 4, 6)
  }

  /** The cell at `row`, `col` of the 3×3 grid. */
  function At(b: Board, row: int, col: int): Cell
    requires 0 <= row < 3 && 0 <= col < 3
  {
    b[3 * row + col]
  }

  /** The cell on the anti-diagonal in row `row`. */
  function AntiDiagonal(b: Board, row: int): Cell
    requires 0 <= row < 3
  {
    At(b, row, 2 - row)
  }

  /** `p` fills row `row`. */
  ghost predicate OwnsRow(p: Cell, b: Board, row: int)
    requires 0 <= row < 3
  {
    forall col :: 0 <= col < 3 ==> At(b, row, col) == p
  }

  /** `p` fills column `col`. */
  ghost predicate OwnsColumn(p: Cell, b: Board, col: int)
    requires 0 <= col < 3
  {
    forall row :: 0 <= row < 3 ==> At(b, row, col) == p
  }

  /** Reference definition of a win, independent of the line list: `p` fills a
      whole row, a whole column, the main diagonal or the anti-diagonal. */
  ghost predicate Wins(p: Cell, b: Board) {
    || (exists row :: 0 <= row < 3 && OwnsRow(p, b, row))
    || (exists col :: 0 <= col < 3 && OwnsColumn(p, b, col))
    || (forall k :: 0 <= k < 3 ==> At(b, k, k) == p)
    || (forall k :: 0 <= k < 3 ==> AntiDiagonal(b, k) == p)
  }

  /** The explicit eight-line check agrees with the geometric definition. */
  lemma CheckWinnerIsWins(p: Cell, b: Board)
    ensures CheckWinner(p, b) <==> Wins(p, b)
  {
    if Wins(p, b) {
      if exists row :: 0 <= row < 3 && OwnsRow(p, b, row) {
        var row :| 0 <= row < 3 && OwnsRow(p, b, row);
        assert At(b, row, 0) == p && At(b, row, 1) == p && At(b, row, 2) == p;
      } else if exists col :: 0 <= col < 3 && OwnsColumn(p, b, col) {
        var col :| 0 <= col < 3 && OwnsColumn(p, b, col);
        assert At(b, 0, col) == p && At(b, 1, col) == p && At(b, 2, col) == p;
      } else if forall k :: 0 <= k < 3 ==> At(b, k, k) == p {
        assert At(b, 0, 0) == p && At(b, 1, 1) == p && At(b, 2, 2) == p;
      } else {
        assert AntiDiagonal(b, 0) == p && AntiDiagonal(b, 1) == p && AntiDiagonal(b, 2) == p;
        assert Line(p, b, 2, 4, 6);
      }
    }
    if CheckWinner(p, b) {
      if Line(p, b, 0, 1, 2) {
        assert OwnsRow(p, b, 0);
      } else if Line(p, b, 3, 4, 5) {
        assert OwnsRow(p, b, 1);
      } else if Line(p, b, 6, 7, 8) {
        assert OwnsRow(p, b, 2);
      } else if Line(p, b, 0, 3, 6) {
        assert OwnsColumn(p, b, 0);
      } else if Line(p, b, 1, 4, 7) {
        assert OwnsColumn(p, b, 1);
      } else if Line(p, b, 2, 5, 8) {
        assert OwnsColumn(p, b, 2);
      } else if Line(p, b, 0, 4, 8) {
        assert forall k :: 0 <= k < 3 ==> At(b, k, k) == p;
      } else {
        assert forall k :: 0 <= k < 3 ==> AntiDiagonal(b, k) == p;
      }
    }
  }

  /** `findWinner`: SELF is checked before OPPONENT. What it reports is
      stated by `FindWinnerSpec`. */
  function FindWinner(b: Board): Cell {
    if CheckWinner(Self, b) then Self
    else if CheckWinner(Opponent, b) then Opponent
    else Empty
  }

  /** `findWinner` reports SELF exactly when SELF holds a line, OPPONENT
      exactly when OPPONENT holds one and SELF does not (so a board on which
      both hold a line counts as won by SELF), and no winner otherwise. */
  lemma FindWinnerSpec(b: Board)
    ensures FindWinner(b) == Self <==> Wins(Self, b)
    ensures FindWinner(b) == Opponent <==> !Wins(Self, b) && Wins(Opponent, b)
    ensures FindWinner(b) == Empty <==> !Wins(Self, b) && !Wins(Opponent, b)
  {
    CheckWinnerIsWins(Self, b);
    CheckWinnerIsWins(Opponent, b);
  }

  /** Number of cells of `b` that hold `c`. */
  function Count(c: Cell, b: seq<Cell>): nat {
    if |b| == 0 then 0 else (if b[0] == c then 1 else 0) + Count(c, b[1..])
  }

  /** Filling an empty cell with a mark removes exactly one empty cell. */
  lemma {:induction false} CountEmptyFill(b: seq<Cell>, c: int, p: Cell)
    requires 0 <= c < |b| && b[c] == Empty && p != Empty
    ensures Count(Empty, b[c := p]) + 1 == Count(Empty, b)
  {
    if c == 0 {
      assert b[c := p][1..] == b[1..];
    } else {
      CountEmptyFill(b[1..], c - 1, p);
      assert b[c := p][1..] == b[1..][c - 1 := p];
    }
  }

  /** A sequence of empty cells counts every cell. */
  lemma {:induction false} CountEmptyAllEmpty(b: seq<Cell>)
    requires forall i :: 0 <= i < |b| ==> b[i] == Empty
    ensures Count(Empty, b) == |b|
  {
    if |b| > 0 {
      CountEmptyAllEmpty(b[1..]);
    }
  }
}

=== FILE: coordinates.dfy ===
/**
  Conversion between positions on the 9×9 grid of the game and moves
  (sub-board, cell), and applying the opponent's move.

  Position (`i`, `j`) lies in sub-board column `i / 3`, sub-board row `j / 3`,
  and in that sub-board at column `i % 3`, row `j % 3`. The program uses Go's
  integer division and remainder, which truncate toward zero; they are
  written out here because Dafny's own operators are Euclidean and differ on
  negative operands.
 */
module Coordinates {
  import opened Boards
  import opened Ultimate

  /** Go's `a / d` for `d > 0`: the quotient truncated toward zero. */
  function GoDiv(a: int, d: int): int
    requires d > 0
  {
    if a >= 0 then a / d else -((-a) / d)
  }

  /** Go's `a % d` for `d > 0`: the remainder with the sign of `a`. */
  function GoMod(a: int, d: int): int
    requires d > 0
  {
    if a >= 0 then a % d else -((-a) % d)
  }

  /** Go's quotient and remainder: `a = d * q + m`, with `|m| < d` and `m`
      never of the opposite sign to `a`. */
  lemma GoDivMod(a: int, d: int)
    requires d > 0
    ensures a == d * GoDiv(a, d) + GoMod(a, d)
    ensures -d < GoMod(a, d) < d
    ensures a >= 0 ==> 0 <= GoMod(a, d)
    ensures a < 0 ==> GoMod(a, d) <= 0
  {
  }

  /** `convertCoordinate`: a one-dimensional index as (column, row) of a 3×3
      grid. */
  function ConvertCoordinate(oneDim: int): (r: (int, int))
    ensures oneDim == 3 * r.1 + r.0
    ensures 0 <= oneDim < 9 ==> 0 <= r.0 < 3 && 0 <= r.1 < 3
  {
    GoDivMod(oneDim, 3);
    (GoMod(oneDim, 3), GoDiv(oneDim, 3))
  }

  /** `computeMove`: the grid position (`x`, `y`) of a move. */
  function ComputeMove(move: MoveCoordinate): (int, int) {
    var (boardX, boardY) := ConvertCoordinate(move.boardCoordinate);
    var (i, j) := ConvertCoordinate(move.coordinate);
    (boardX * 3 + i, boardY * 3 + j)
  }

  /** The sub-board and cell `moveUltimate` computes for grid position
      (`i`, `j`). */
  function GridMove(i: int, j: int): MoveCoordinate {
    MoveCoordinate(GoDiv(j, 3) * 3 + GoDiv(i, 3), GoMod(j, 3) * 3 + GoMod(i, 3))
  }

  /** The computed move names a cell of the board, as indexing requires. */
  predicate OnBoard(m: MoveCoordinate) {
    0 <= m.boardCoordinate < 9 && 0 <= m.coordinate < 9
  }

  /** `moveUltimate`: the side to move marks the cell at grid position
      (`i`, `j`), whatever it held; the turn flips, the move is recorded and
      the best move is cleared. Go panics when the computed indices leave the
      board. */
  function MoveUltimate(s: UltimateState, i: int, j: int): (r: UltimateState)
    requires OnBoard(GridMove(i, j))
    ensures var m := GridMove(i, j);
      && r.lastMove == m
      && r.ultimateBoard[m.boardCoordinate][m.coordinate] == Player(s.self)
      && (forall k, c :: 0 <= k < 9 && 0 <= c < 9 && MoveCoordinate(k, c) != m ==>
            r.ultimateBoard[k][c] == s.ultimateBoard[k][c])
    ensures r.self == !s.self && r.result == s.result && r.bestMove == None
  {
    var m := GridMove(i, j);
    s.(ultimateBoard := s.ultimateBoard[m.boardCoordinate :=
                          s.ultimateBoard[m.boardCoordinate][m.coordinate := Player(s.self)]],
       self := !s.self,
       lastMove := m,
       bestMove := None)
  }

  /** A non-negative index splits into its quotient and remainder by 3, on
      which Go and Euclidean division agree. */
  lemma Split3(a: int)
    requires 0 <= a
    ensures GoDiv(a, 3) == a / 3 && GoMod(a, 3) == a % 3
    ensures a == 3 * (a / 3) + a % 3 && 0 <= a % 3 < 3
    ensures a < 9 ==> a / 3 < 3
  {
  }

  /** `3 * q + r` with `0 <= r < 3` has quotient `q` and remainder `r`. */
  lemma Combine3(q: int, r: int)
    requires 0 <= q && 0 <= r < 3
    ensures GoDiv(3 * q + r, 3) == q && GoMod(3 * q + r, 3) == r
  {
  }

  /** Every grid position maps to a move on the board, and `computeMove`
      inverts the mapping. */
  lemma GridRoundTrip(i: int, j: int)
    requires 0 <= i < 9 && 0 <= j < 9
    ensures OnBoard(GridMove(i, j))
    ensures ComputeMove(GridMove(i, j)) == (i, j)
  {
    Split3(i);
    Split3(j);
    var qi, ri, qj, rj := i / 3, i % 3, j / 3, j % 3;
    var m := GridMove(i, j);
    assert m == MoveCoordinate(3 * qj + qi, 3 * rj + ri);
    Combine3(qj, qi);
    Combine3(rj, ri);
    assert ConvertCoordinate(m.boardCoordinate) == (qi, qj);
    assert ConvertCoordinate(m.coordinate) == (ri, rj);
  }

  /** Every move on the board has a grid position, from which `moveUltimate`
      computes the same move back. */
  lemma MoveRoundTrip(m: MoveCoordinate)
    requires OnBoard(m)
    ensures var (x, y) := ComputeMove(m); 0 <= x < 9 && 0 <= y < 9 && GridMove(x, y) == m
  {
    var b, c := m.boardCoordinate, m.coordinate;
    Split3(b);
    Split3(c);
    var bCol, bRow, cCol, cRow := b % 3, b / 3, c % 3, c / 3;
    assert ConvertCoordinate(b) == (bCol, bRow);
    assert ConvertCoordinate(c) == (cCol, cRow);
    var x, y := ComputeMove(m).0, ComputeMove(m).1;
    assert x == 3 * bCol + cCol && y == 3 * bRow + cRow;
    Combine3(bCol, cCol);
    Combine3(bRow, cRow);
    assert GridMove(x, y) == MoveCoordinate(3 * bRow + bCol, 3 * cRow + cCol);
  }

  /** Truncating division lets some positions off the grid through: (-1, 4)
      marks the same cell as (2, 3), cell 2 of sub-board 3 (with Euclidean
      division the same formula would give sub-board 2, cell 5). */
  lemma OffGridPositionAliases()
    ensures GridMove(-1, 4) == MoveCoordinate(3, 2)
    ensures GridMove(2, 3) == MoveCoordinate(3, 2)
  {
  }

  /** Applying a move on the grid is the placement of `Mark` at the computed
      sub-board and cell. */
  lemma MoveUltimateIsMark(s: UltimateState, i: int, j: int)
    requires 0 <= i < 9 && 0 <= j < 9
    ensures OnBoard(GridMove(i, j))
    ensures MoveUltimate(s, i, j) == Mark(s, GridMove(i, j).boardCoordinate, GridMove(i, j).coordinate)
  {
    GridRoundTrip(i, j);
  }

  /** The opponent's move at (`i`, `j`) is one of the successors the move
      generator produces exactly when it is legal: its sub-board is allowed
      and its cell is empty. */
  lemma MoveUltimateIsGenerated(s: UltimateState, i: int, j: int)
    requires ValidLastMove(s) && 0 <= i < 9 && 0 <= j < 9
    ensures var m := GridMove(i, j);
      OnBoard(m) &&
      (MoveUltimate(s, i, j) in FindNextPossibilitiesUltimate(s) <==>
       Allowed(s, m.boardCoordinate) && s.ultimateBoard[m.boardCoordinate][m.coordinate] == Empty)
  {
    var m := GridMove(i, j);
    MoveUltimateIsMark(s, i, j);
    var t := MoveUltimate(s, i, j);
    var next := FindNextPossibilitiesUltimate(s);
    NextPossibilitiesSpec(s);
    if t in next {
      var n :| 0 <= n < |next| && next[n] == t;
      assert Successor(s, next[n]);
    }
    if Allowed(s, m.boardCoordinate) && s.ultimateBoard[m.boardCoordinate][m.coordinate] == Empty {
      var n :| 0 <= n < |next| && next[n].lastMove == MoveCoordinate(m.boardCoordinate, m.coordinate);
      assert Successor(s, next[n]);
    }
  }
}

=== FILE: scores.dfy ===
/**
  Search scores. The program keeps scores as floating-point numbers, but every
  score it produces is a small integer and the infinities appear only as the
  initial alpha, beta and running value of the search. Scores are therefore
  integers extended with the two infinities, with the maximum, minimum and
  comparison the search uses.
 */
module Scores {

  datatype Score = NegInf | Fin(v: int) | PosInf

  /** The order of the extended integers. */
  predicate Leq(a: Score, b: Score) {
    match (a, b)
    case (NegInf, _) => true
    case (_, PosInf) => true
    case (Fin(x), Fin(y)) => x <= y
    case _ => false
  }

  /** `a >= b`, the pruning test. */
  predicate Geq(a: Score, b: Score) {
    Leq(b, a)
  }

  /** The larger of two scores. */
  function Max(a: Score, b: Score): (r: Score)
    ensures Leq(a, r) && Leq(b, r)
    ensures r == a || r == b
  {
    if Leq(a, b) then b else a
  }

  /** The smaller of two scores. */
  function Min(a: Score, b: Score): (r: Score)
    ensures Leq(r, a) && Leq(r, b)
    ensures r == a || r == b
  {
    if Leq(a, b) then a else b
  }

  /** The order is transitive. */
  lemma LeqTrans(a: Score, b: Score, c: Score)
    requires Leq(a, b) && Leq(b, c)
    ensures Leq(a, c)
  {
  }

  /** A running maximum folded into the bound disappears behind any larger
      score: with `v <= x`, `max(max(a, v), x) == max(a, x)`. */
  lemma MaxAbsorbs(a: Score, v: Score, x: Score)
    requires Leq(v, x)
    ensures Max(Max(a, v), x) == Max(a, x)
  {
  }

  /** Dually, with `x <= v`, `min(min(b, v), x) == min(b, x)`. */
  lemma MinAbsorbs(b: Score, v: Score, x: Score)
    requires Leq(x, v)
    ensures Min(Min(b, v), x) == Min(b, x)
  {
  }

  /** A score the search may write: a finite value in [-10, 10]. */
  predicate InRange(x: Score) {
    x.Fin? && -10 <= x.v <= 10
  }
}

=== FILE: search.dfy ===
/**
  Leaf evaluation, depth-bounded alpha-beta search and move selection.

  The search is a pure function returning the searched node. As in the
  program, a node's `result` and `bestMove` are written only at a terminal
  node (through `SetResult`) or when a successor triggers a cutoff; a node
  whose successor loop runs to the end keeps the `result` and `bestMove` it
  had on entry. The recorded best move is the unsearched successor, as
  generated, not the searched copy.
 */
module Search {
  import opened Boards
  import opened Scores
  import opened Ultimate

  // ---------------------------------------------------------------------------
  // Leaf evaluation
  // ---------------------------------------------------------------------------

  /** The tally loop of `scoreGameState`: +1 per SELF cell, -1 per OPPONENT
      cell. */
  function Tally(b: seq<Cell>): (score: int)
    ensures score == Count(Self, b) - Count(Opponent, b)
    ensures -|b| <= score <= |b|
    ensures (forall i :: 0 <= i < |b| ==> b[i] == Empty) ==> score == 0
  {
    if |b| == 0 then 0
    else
      (match b[0] case Self => 1 case Opponent => -1 case Empty => 0) + Tally(b[1..])
  }

  /** The first loop of `scoreGameState`, from sub-board `i` on. Its loop
      variable `b` shadows the board declared before the loop: each iteration
      writes the winner of sub-board `i` into cell `i` of a loop-local copy of
      that sub-board, a write nothing reads afterwards. The outer board
      passes through every iteration as it was. That reading of Go's scoping
      (`b :=` declares a new local) is built into this definition, which
      therefore never looks at `u`. */
  function ShadowedFill(u: UltimateBoard, i: nat, outer: Board): Board
    requires i <= 9
    decreases 9 - i
  {
    if i == 9 then outer else ShadowedFill(u, i + 1, outer)
  }

  /** `scoreGameState`: the tally of the board left by the first loop. */
  function ScoreGameState(u: UltimateBoard): int {
    Tally(ShadowedFill(u, 0, EmptyBoard()))
  }

  /** The first loop of `scoreGameState` leaves the outer board as it was.
      Since `ShadowedFill` encodes the shadowing, this records the
      pass-through; it does not derive the shadowing from the loop. */
  lemma {:induction false} ShadowedFillKeepsBoard(u: UltimateBoard, i: nat, outer: Board)
    requires i <= 9
    ensures ShadowedFill(u, i, outer) == outer
    decreases 9 - i
  {
    if i < 9 {
      ShadowedFillKeepsBoard(u, i + 1, outer);
    }
  }

  /** The evaluation is 0 for every ultimate board: the board that is tallied
      is still the empty one. */
  lemma ScoreGameStateIsZero(u: UltimateBoard)
    ensures ScoreGameState(u) == 0
  {
    ShadowedFillKeepsBoard(u, 0, EmptyBoard());
  }

  /** The sub-board winners that `scoreGameState` evidently meant to count are
      ignored: even a board whose meta-board is all SELF scores 0, although
      the tally of its meta-board is 9. */
  lemma ScoreIgnoresSubBoardWinners(u: UltimateBoard)
    requires forall i :: 0 <= i < 9 ==> FindWinner(u[i]) == Self
    ensures Tally(MetaBoard(u)) == 9
    ensures ScoreGameState(u) == 0
  {
    var m := MetaBoard(u);
    assert forall i :: 0 <= i < 9 ==> m[i] == Self;
    AllSelfTally(m);
    ScoreGameStateIsZero(u);
  }

  /** A sequence of SELF cells tallies its length. */
  lemma {:induction false} AllSelfTally(b: seq<Cell>)
    requires forall i :: 0 <= i < |b| ==> b[i] == Self
    ensures Tally(b) == |b|
  {
    if |b| > 0 {
      AllSelfTally(b[1..]);
    }
  }

  // ---------------------------------------------------------------------------
  // Search
  // ---------------------------------------------------------------------------

  /** `r` is the node `s` with at most its score and best move changed. */
  predicate SameNode(s: UltimateState, r: UltimateState) {
    r.self == s.self && r.ultimateBoard == s.ultimateBoard && r.lastMove == s.lastMove
  }

  /** `setResult`: record a score and drop the best move. */
  function SetResult(s: UltimateState, score: Score): (r: UltimateState)
    ensures SameNode(s, r)
    ensures r.result == score && r.bestMove == None
  {
    s.(result := score, bestMove := None)
  }

  /** The node is searched through its successors: no winner, depth left, and
      at least one successor. */
  predicate Expands(s: UltimateState, depth: int)
    requires ValidLastMove(s)
  {
    FindWinnerUltimate(s.ultimateBoard) == Empty && depth != 0
    && |FindNextPossibilitiesUltimate(s)| > 0
  }

  /** A cutoff recorded on `s`: the best move is one of the generated
      successors `next`, the score is written, nothing else changes. */
  predicate CutAt(s: UltimateState, next: seq<UltimateState>, r: UltimateState) {
    r.bestMove.Some? && r.bestMove.value in next
    && r == s.(result := r.result, bestMove := r.bestMove)
  }

  /** The window at which a node cannot prune: for the maximising side beta
      is +infinity and alpha is below it; for the minimising side alpha is
      -infinity and beta is above it. The root call is one. */
  predicate OpenWindow(self: bool, alpha: Score, beta: Score) {
    if self then beta == PosInf && alpha != PosInf else alpha == NegInf && beta != NegInf
  }

  /** `alphaBeta`: the searched node. What it is is stated by the lemmas
      below: `AlphaBetaTerminal`, `AlphaBetaShape`, `AlphaBetaInRange` and
      `AlphaBetaOpenWindow`. */
  function AlphaBeta(s: UltimateState, depth: int, alpha: Score, beta: Score): UltimateState
    requires ValidLastMove(s)
    decreases TotalEmpty(s.ultimateBoard), 1
  {
    var winner := FindWinnerUltimate(s.ultimateBoard);
    if winner == Self then SetResult(s, Fin(10))
    else if winner == Opponent then SetResult(s, Fin(-10))
    else if depth == 0 then SetResult(s, Fin(ScoreGameState(s.ultimateBoard)))
    else
      var next := FindNextPossibilitiesUltimate(s);
      NextAreChildren(s);
      if |next| == 0 then SetResult(s, Fin(0))
      else if s.self then MaxLoop(s, next, 0, depth, alpha, beta, NegInf)
      else MinLoop(s, next, 0, depth, alpha, beta, PosInf)
  }

  /** The score a successor gets from its own search. The search works on a
      copy of the successor, so only this score reaches the loop. */
  function SearchScore(t: UltimateState, depth: int, alpha: Score, beta: Score): Score
    requires ValidLastMove(t)
    decreases TotalEmpty(t.ultimateBoard), 2
  {
    AlphaBeta(t, depth, alpha, beta).result
  }

  /** The maximising successor loop from successor `i` on, with the running
      `value` and `alpha`. Each successor is searched as a copy; a cutoff
      records the unsearched successor. */
  function MaxLoop(s: UltimateState, next: seq<UltimateState>, i: nat, depth: int,
                   alpha: Score, beta: Score, value: Score): UltimateState
    requires ChildrenOf(s, next) && i <= |next|
    decreases TotalEmpty(s.ultimateBoard), 0, |next| - i
  {
    if i == |next| then s
    else
      var value' := Max(value, SearchScore(next[i], depth - 1, alpha, beta));
      var alpha' := Max(alpha, value');
      if Geq(alpha', beta) then s.(result := value', bestMove := Some(next[i]))
      else MaxLoop(s, next, i + 1, depth, alpha', beta, value')
  }

  /** The minimising successor loop from successor `i` on, with the running
      `value` and `beta`. */
  function MinLoop(s: UltimateState, next: seq<UltimateState>, i: nat, depth: int,
                   alpha: Score, beta: Score, value: Score): UltimateState
    requires ChildrenOf(s, next) && i <= |next|
    decreases TotalEmpty(s.ultimateBoard), 0, |next| - i
  {
    if i == |next| then s
    else
      var value' := Min(value, SearchScore(next[i], depth - 1, alpha, beta));
      var beta' := Min(beta, value');
      if Geq(alpha, beta') then s.(result := value', bestMove := Some(next[i]))
      else MinLoop(s, next, i + 1, depth, alpha, beta', value')
  }

  /** A node that is not expanded gets its score and loses its best move: 10
      when SELF holds a line of won sub-boards, else -10 when OPPONENT does,
      else the evaluation (0) at depth 0, else 0 when there is no successor. */
  lemma AlphaBetaTerminal(s: UltimateState, depth: int, alpha: Score, beta: Score)
    requires ValidLastMove(s)
    ensures var r := AlphaBeta(s, depth, alpha, beta);
      var meta := MetaBoard(s.ultimateBoard);
      && (Wins(Self, meta) ==> r == SetResult(s, Fin(10)))
      && (!Wins(Self, meta) && Wins(Opponent, meta) ==> r == SetResult(s, Fin(-10)))
      && (!Wins(Self, meta) && !Wins(Opponent, meta) && depth == 0 ==> r == SetResult(s, Fin(0)))
      && (!Wins(Self, meta) && !Wins(Opponent, meta) && depth != 0 && |FindNextPossibilitiesUltimate(s)| == 0
          ==> r == SetResult(s, Fin(0)))
  {
    FindWinnerUltimateSpec(s.ultimateBoard);
    ScoreGameStateIsZero(s.ultimateBoard);
  }

  /** The search changes only the score and best move of a node. An expanded
      node is returned unchanged or with a cutoff recorded, whose score
      closes the window: for SELF, `max(alpha, score) >= beta`; for
      OPPONENT, `alpha >= min(beta, score)`. Any other node loses its best
      move. */
  lemma AlphaBetaShape(s: UltimateState, depth: int, alpha: Score, beta: Score)
    requires ValidLastMove(s)
    ensures var r := AlphaBeta(s, depth, alpha, beta);
      && SameNode(s, r)
      && (Expands(s, depth) ==> r == s || CutAt(s, FindNextPossibilitiesUltimate(s), r))
      && (Expands(s, depth) && r != s && s.self ==> Geq(Max(alpha, r.result), beta))
      && (Expands(s, depth) && r != s && !s.self ==> Geq(alpha, Min(beta, r.result)))
      && (!Expands(s, depth) ==> r.bestMove == None)
  {
    if Expands(s, depth) {
      var next := FindNextPossibilitiesUltimate(s);
      NextAreChildren(s);
      if s.self {
        MaxLoopShape(s, next, 0, depth, alpha, beta, NegInf);
      } else {
        MinLoopShape(s, next, 0, depth, alpha, beta, PosInf);
      }
    }
  }

  /** The maximising loop returns `s`, or records a cutoff at a successor
      whose score is the running maximum at that point: at least the
      incoming `value`, and large enough that `alpha >= beta` holds once it
      is folded into `alpha`. */
  lemma {:induction false} MaxLoopShape(s: UltimateState, next: seq<UltimateState>, i: nat,
                                        depth: int, alpha: Score, beta: Score, value: Score)
    requires ChildrenOf(s, next) && i <= |next|
    ensures var r := MaxLoop(s, next, i, depth, alpha, beta, value);
      r == s || (CutAt(s, next, r) && Leq(value, r.result) && Geq(Max(alpha, r.result), beta))
    decreases |next| - i
  {
    if i < |next| {
      var value' := Max(value, SearchScore(next[i], depth - 1, alpha, beta));
      var alpha' := Max(alpha, value');
      if !Geq(alpha', beta) {
        MaxLoopShape(s, next, i + 1, depth, alpha', beta, value');
        var r := MaxLoop(s, next, i + 1, depth, alpha', beta, value');
        if r != s {
          LeqTrans(value, value', r.result);
          MaxAbsorbs(alpha, value', r.result);
        }
      }
    }
  }

  /** The minimising loop returns `s`, or records a cutoff at a successor
      whose score is the running minimum at that point: at most the incoming
      `value`, and small enough that `alpha >= beta` holds once it is folded
      into `beta`. */
  lemma {:induction false} MinLoopShape(s: UltimateState, next: seq<UltimateState>, i: nat,
                                        depth: int, alpha: Score, beta: Score, value: Score)
    requires ChildrenOf(s, next) && i <= |next|
    ensures var r := MinLoop(s, next, i, depth, alpha, beta, value);
      r == s || (CutAt(s, next, r) && Leq(r.result, value) && Geq(alpha, Min(beta, r.result)))
    decreases |next| - i
  {
    if i < |next| {
      var value' := Min(value, SearchScore(next[i], depth - 1, alpha, beta));
      var beta' := Min(beta, value');
      if !Geq(alpha, beta') {
        MinLoopShape(s, next, i + 1, depth, alpha, beta', value');
        var r := MinLoop(s, next, i + 1, depth, alpha, beta', value');
        if r != s {
          LeqTrans(r.result, value', value);
          MinAbsorbs(beta, value', r.result);
        }
      }
    }
  }

  /** Conversely, the maximising loop cuts off as soon as the window closes:
      when folding the score of successor `i` into `alpha` gives
      `alpha >= beta`, the node records that successor with the running
      maximum and the loop stops there. */
  lemma MaxLoopCutsWhenClosed(s: UltimateState, next: seq<UltimateState>, i: nat,
                              depth: int, alpha: Score, beta: Score, value: Score)
    requires ChildrenOf(s, next) && i < |next|
    ensures var x := Max(value, SearchScore(next[i], depth - 1, alpha, beta));
      Geq(Max(alpha, x), beta) ==>
        MaxLoop(s, next, i, depth, alpha, beta, value) == s.(result := x, bestMove := Some(next[i]))
  {
  }

  /** Conversely, the minimising loop cuts off as soon as the window closes:
      when folding the score of successor `i` into `beta` gives
      `alpha >= beta`, the node records that successor with the running
      minimum and the loop stops there. */
  lemma MinLoopCutsWhenClosed(s: UltimateState, next: seq<UltimateState>, i: nat,
                              depth: int, alpha: Score, beta: Score, value: Score)
    requires ChildrenOf(s, next) && i < |next|
    ensures var x := Min(value, SearchScore(next[i], depth - 1, alpha, beta));
      Geq(alpha, Min(beta, x)) ==>
        MinLoop(s, next, i, depth, alpha, beta, value) == s.(result := x, bestMove := Some(next[i]))
  {
  }

  /** At an expanded node, a first successor whose score closes the window
      is recorded at once, with its score: for SELF when
      `max(alpha, score) >= beta`, for OPPONENT when `alpha >= min(beta, score)`. */
  lemma FirstSuccessorClosingCuts(s: UltimateState, depth: int, alpha: Score, beta: Score)
    requires ValidLastMove(s) && Expands(s, depth)
    ensures var next := FindNextPossibilitiesUltimate(s);
      && ChildrenOf(s, next)
      && var x := SearchScore(next[0], depth - 1, alpha, beta);
      && (s.self && Geq(Max(alpha, x), beta) ==>
            AlphaBeta(s, depth, alpha, beta) == s.(result := x, bestMove := Some(next[0])))
      && (!s.self && Geq(alpha, Min(beta, x)) ==>
            AlphaBeta(s, depth, alpha, beta) == s.(result := x, bestMove := Some(next[0])))
  {
    var next := FindNextPossibilitiesUltimate(s);
    NextAreChildren(s);
    if s.self {
      MaxLoopCutsWhenClosed(s, next, 0, depth, alpha, beta, NegInf);
    } else {
      MinLoopCutsWhenClosed(s, next, 0, depth, alpha, beta, PosInf);
    }
  }

  /** A window that is already closed on entry (`alpha >= beta`) makes an
      expanded node cut off at its first successor, on either side. */
  lemma ClosedWindowCutsAtFirst(s: UltimateState, depth: int, alpha: Score, beta: Score)
    requires ValidLastMove(s) && Geq(alpha, beta)
    ensures Expands(s, depth) ==>
      AlphaBeta(s, depth, alpha, beta).bestMove == Some(FindNextPossibilitiesUltimate(s)[0])
  {
    if Expands(s, depth) {
      var next := FindNextPossibilitiesUltimate(s);
      FirstSuccessorClosingCuts(s, depth, alpha, beta);
      var x := SearchScore(next[0], depth - 1, alpha, beta);
      LeqTrans(beta, alpha, Max(alpha, x));
      LeqTrans(Min(beta, x), beta, alpha);
    }
  }

  /** The running alpha (for SELF) or beta (for OPPONENT) of a successor
      loop, with the running maximum or minimum of the children's scores. */
  datatype Running = Running(bound: Score, value: Score)

  /** The maximising loop's running alpha and value after the first `j`
      successors have been searched, each with the alpha reached before it,
      whether or not the loop would have stopped earlier. */
  function MaxPrefix(s: UltimateState, next: seq<UltimateState>, j: nat, depth: int,
                     alpha: Score, beta: Score): Running
    requires ChildrenOf(s, next) && j <= |next|
    decreases j
  {
    if j == 0 then Running(alpha, NegInf)
    else
      var p := MaxPrefix(s, next, j - 1, depth, alpha, beta);
      var value := Max(p.value, SearchScore(next[j - 1], depth - 1, p.bound, beta));
      Running(Max(p.bound, value), value)
  }

  /** The minimising loop's running beta and value after the first `j`
      successors. */
  function MinPrefix(s: UltimateState, next: seq<UltimateState>, j: nat, depth: int,
                     alpha: Score, beta: Score): Running
    requires ChildrenOf(s, next) && j <= |next|
    decreases j
  {
    if j == 0 then Running(beta, PosInf)
    else
      var p := MinPrefix(s, next, j - 1, depth, alpha, beta);
      var value := Min(p.value, SearchScore(next[j - 1], depth - 1, alpha, p.bound));
      Running(Min(p.bound, value), value)
  }

  /** The window is closed (`alpha >= beta`) after the first `j` successors
      of a maximising node. */
  predicate MaxCloses(s: UltimateState, next: seq<UltimateState>, j: nat, depth: int,
                      alpha: Score, beta: Score)
    requires ChildrenOf(s, next) && j <= |next|
  {
    Geq(MaxPrefix(s, next, j, depth, alpha, beta).bound, beta)
  }

  /** The window is closed after the first `j` successors of a minimising
      node. */
  predicate MinCloses(s: UltimateState, next: seq<UltimateState>, j: nat, depth: int,
                      alpha: Score, beta: Score)
    requires ChildrenOf(s, next) && j <= |next|
  {
    Geq(alpha, MinPrefix(s, next, j, depth, alpha, beta).bound)
  }

  /** While the window stays open, each successor hands the folded alpha and
      running maximum on to the next: the loop started at the first
      successor is the loop resumed after `i` of them with their prefix. */
  lemma {:induction false} MaxLoopFromPrefix(s: UltimateState, next: seq<UltimateState>, i: nat,
                                             depth: int, alpha: Score, beta: Score)
    requires ChildrenOf(s, next) && i <= |next|
    requires forall j :: 1 <= j <= i ==> !MaxCloses(s, next, j, depth, alpha, beta)
    ensures var p := MaxPrefix(s, next, i, depth, alpha, beta);
      MaxLoop(s, next, 0, depth, alpha, beta, NegInf) == MaxLoop(s, next, i, depth, p.bound, beta, p.value)
    decreases i
  {
    if i > 0 {
      MaxLoopFromPrefix(s, next, i - 1, depth, alpha, beta);
      assert !MaxCloses(s, next, i, depth, alpha, beta);
    }
  }

  /** While the window stays open, each successor hands the folded beta and
      running minimum on to the next. */
  lemma {:induction false} MinLoopFromPrefix(s: UltimateState, next: seq<UltimateState>, i: nat,
                                             depth: int, alpha: Score, beta: Score)
    requires ChildrenOf(s, next) && i <= |next|
    requires forall j :: 1 <= j <= i ==> !MinCloses(s, next, j, depth, alpha, beta)
    ensures var p := MinPrefix(s, next, i, depth, alpha, beta);
      MinLoop(s, next, 0, depth, alpha, beta, PosInf) == MinLoop(s, next, i, depth, alpha, p.bound, p.value)
    decreases i
  {
    if i > 0 {
      MinLoopFromPrefix(s, next, i - 1, depth, alpha, beta);
      assert !MinCloses(s, next, i, depth, alpha, beta);
    }
  }

  /** The maximising loop cuts off at the first successor after which the
      window is closed, recording it with the running maximum there, and
      leaves the node alone when the window never closes. */
  lemma MaxLoopOutcome(s: UltimateState, next: seq<UltimateState>, depth: int,
                       alpha: Score, beta: Score, j: nat)
    requires ChildrenOf(s, next)
    ensures (forall k :: 1 <= k <= |next| ==> !MaxCloses(s, next, k, depth, alpha, beta)) ==>
      MaxLoop(s, next, 0, depth, alpha, beta, NegInf) == s
    ensures 1 <= j <= |next| && MaxCloses(s, next, j, depth, alpha, beta)
            && (forall k :: 1 <= k < j ==> !MaxCloses(s, next, k, depth, alpha, beta)) ==>
      MaxLoop(s, next, 0, depth, alpha, beta, NegInf)
        == s.(result := MaxPrefix(s, next, j, depth, alpha, beta).value, bestMove := Some(next[j - 1]))
  {
    if forall k :: 1 <= k <= |next| ==> !MaxCloses(s, next, k, depth, alpha, beta) {
      MaxLoopFromPrefix(s, next, |next|, depth, alpha, beta);
    }
    if 1 <= j <= |next| && MaxCloses(s, next, j, depth, alpha, beta)
       && (forall k :: 1 <= k < j ==> !MaxCloses(s, next, k, depth, alpha, beta)) {
      MaxLoopFromPrefix(s, next, j - 1, depth, alpha, beta);
    }
  }

  /** The minimising loop cuts off at the first successor after which the
      window is closed, recording it with the running minimum there, and
      leaves the node alone when the window never closes. */
  lemma MinLoopOutcome(s: UltimateState, next: seq<UltimateState>, depth: int,
                       alpha: Score, beta: Score, j: nat)
    requires ChildrenOf(s, next)
    ensures (forall k :: 1 <= k <= |next| ==> !MinCloses(s, next, k, depth, alpha, beta)) ==>
      MinLoop(s, next, 0, depth, alpha, beta, PosInf) == s
    ensures 1 <= j <= |next| && MinCloses(s, next, j, depth, alpha, beta)
            && (forall k :: 1 <= k < j ==> !MinCloses(s, next, k, depth, alpha, beta)) ==>
      MinLoop(s, next, 0, depth, alpha, beta, PosInf)
        == s.(result := MinPrefix(s, next, j, depth, alpha, beta).value, bestMove := Some(next[j - 1]))
  {
    if forall k :: 1 <= k <= |next| ==> !MinCloses(s, next, k, depth, alpha, beta) {
      MinLoopFromPrefix(s, next, |next|, depth, alpha, beta);
    }
    if 1 <= j <= |next| && MinCloses(s, next, j, depth, alpha, beta)
       && (forall k :: 1 <= k < j ==> !MinCloses(s, next, k, depth, alpha, beta)) {
      MinLoopFromPrefix(s, next, j - 1, depth, alpha, beta);
    }
  }

  /** A maximising expanded node cuts off at the first successor after which
      the window is closed, recording it with the running maximum there, and
      comes back unchanged when the window never closes. */
  lemma MaxNodeOutcome(s: UltimateState, depth: int, alpha: Score, beta: Score, j: nat)
    requires ValidLastMove(s) && s.self
    ensures var next := FindNextPossibilitiesUltimate(s);
      Expands(s, depth) ==>
        && ChildrenOf(s, next)
        && ((forall k :: 1 <= k <= |next| ==> !MaxCloses(s, next, k, depth, alpha, beta)) ==>
              AlphaBeta(s, depth, alpha, beta) == s)
        && (1 <= j <= |next| && MaxCloses(s, next, j, depth, alpha, beta)
            && (forall k :: 1 <= k < j ==> !MaxCloses(s, next, k, depth, alpha, beta)) ==>
              AlphaBeta(s, depth, alpha, beta)
                == s.(result := MaxPrefix(s, next, j, depth, alpha, beta).value, bestMove := Some(next[j - 1])))
  {
    if Expands(s, depth) {
      var next := FindNextPossibilitiesUltimate(s);
      NextAreChildren(s);
      MaxLoopOutcome(s, next, depth, alpha, beta, j);
    }
  }

  /** A minimising expanded node cuts off at the first successor after which
      the window is closed, recording it with the running minimum there, and
      comes back unchanged when the window never closes. */
  lemma MinNodeOutcome(s: UltimateState, depth: int, alpha: Score, beta: Score, j: nat)
    requires ValidLastMove(s) && !s.self
    ensures var next := FindNextPossibilitiesUltimate(s);
      Expands(s, depth) ==>
        && ChildrenOf(s, next)
        && ((forall k :: 1 <= k <= |next| ==> !MinCloses(s, next, k, depth, alpha, beta)) ==>
              AlphaBeta(s, depth, alpha, beta) == s)
        && (1 <= j <= |next| && MinCloses(s, next, j, depth, alpha, beta)
            && (forall k :: 1 <= k < j ==> !MinCloses(s, next, k, depth, alpha, beta)) ==>
              AlphaBeta(s, depth, alpha, beta)
                == s.(result := MinPrefix(s, next, j, depth, alpha, beta).value, bestMove := Some(next[j - 1])))
  {
    if Expands(s, depth) {
      var next := FindNextPossibilitiesUltimate(s);
      NextAreChildren(s);
      MinLoopOutcome(s, next, depth, alpha, beta, j);
    }
  }

  /** Every score the search writes lies in [-10, 10]: a node that enters
      with such a score leaves with one. */
  lemma {:induction false} AlphaBetaInRange(s: UltimateState, depth: int, alpha: Score, beta: Score)
    requires ValidLastMove(s) && InRange(s.result)
    ensures InRange(AlphaBeta(s, depth, alpha, beta).result)
    decreases TotalEmpty(s.ultimateBoard), 1
  {
    if Expands(s, depth) {
      var next := FindNextPossibilitiesUltimate(s);
      NextAreChildren(s);
      if s.self {
        MaxLoopInRange(s, next, 0, depth, alpha, beta, NegInf);
      } else {
        MinLoopInRange(s, next, 0, depth, alpha, beta, PosInf);
      }
    }
  }

  /** The maximising loop writes the running maximum of children's scores,
      which stays in [-10, 10]. */
  lemma {:induction false} MaxLoopInRange(s: UltimateState, next: seq<UltimateState>, i: nat,
                                          depth: int, alpha: Score, beta: Score, value: Score)
    requires ChildrenOf(s, next) && i <= |next|
    requires InRange(s.result) && (value == NegInf || InRange(value))
    ensures InRange(MaxLoop(s, next, i, depth, alpha, beta, value).result)
    decreases TotalEmpty(s.ultimateBoard), 0, |next| - i
  {
    if i < |next| {
      AlphaBetaInRange(next[i], depth - 1, alpha, beta);
      var value' := Max(value, SearchScore(next[i], depth - 1, alpha, beta));
      var alpha' := Max(alpha, value');
      if !Geq(alpha', beta) {
        MaxLoopInRange(s, next, i + 1, depth, alpha', beta, value');
      }
    }
  }

  /** The minimising loop writes the running minimum of children's scores,
      which stays in [-10, 10]. */
  lemma {:induction false} MinLoopInRange(s: UltimateState, next: seq<UltimateState>, i: nat,
                                          depth: int, alpha: Score, beta: Score, value: Score)
    requires ChildrenOf(s, next) && i <= |next|
    requires InRange(s.result) && (value == PosInf || InRange(value))
    ensures InRange(MinLoop(s, next, i, depth, alpha, beta, value).result)
    decreases TotalEmpty(s.ultimateBoard), 0, |next| - i
  {
    if i < |next| {
      AlphaBetaInRange(next[i], depth - 1, alpha, beta);
      var value' := Min(value, SearchScore(next[i], depth - 1, alpha, beta));
      var beta' := Min(beta, value');
      if !Geq(alpha, beta') {
        MinLoopInRange(s, next, i + 1, depth, alpha, beta', value');
      }
    }
  }

  /** With an open window no cutoff can happen: the children's scores are
      finite, so the maximising side's alpha never reaches +infinity and the
      minimising side's beta never reaches -infinity. An expanded node is
      then returned exactly as it came in. */
  lemma AlphaBetaOpenWindow(s: UltimateState, depth: int, alpha: Score, beta: Score)
    requires ValidLastMove(s) && InRange(s.result)
    requires Expands(s, depth) && OpenWindow(s.self, alpha, beta)
    ensures AlphaBeta(s, depth, alpha, beta) == s
  {
    var next := FindNextPossibilitiesUltimate(s);
    NextAreChildren(s);
    if s.self {
      MaxLoopOpen(s, next, 0, depth, alpha, beta, NegInf);
    } else {
      MinLoopOpen(s, next, 0, depth, alpha, beta, PosInf);
    }
  }

  /** The maximising loop with beta = +infinity never cuts off. */
  lemma {:induction false} MaxLoopOpen(s: UltimateState, next: seq<UltimateState>, i: nat,
                                       depth: int, alpha: Score, beta: Score, value: Score)
    requires ChildrenOf(s, next) && i <= |next|
    requires InRange(s.result) && (value == NegInf || InRange(value))
    requires beta == PosInf && alpha != PosInf
    ensures MaxLoop(s, next, i, depth, alpha, beta, value) == s
    decreases |next| - i
  {
    if i < |next| {
      AlphaBetaInRange(next[i], depth - 1, alpha, beta);
      var value' := Max(value, SearchScore(next[i], depth - 1, alpha, beta));
      var alpha' := Max(alpha, value');
      MaxLoopOpen(s, next, i + 1, depth, alpha', beta, value');
    }
  }

  /** The minimising loop with alpha = -infinity never cuts off. */
  lemma {:induction false} MinLoopOpen(s: UltimateState, next: seq<UltimateState>, i: nat,
                                       depth: int, alpha: Score, beta: Score, value: Score)
    requires ChildrenOf(s, next) && i <= |next|
    requires InRange(s.result) && (value == PosInf || InRange(value))
    requires alpha == NegInf && beta != NegInf
    ensures MinLoop(s, next, i, depth, alpha, beta, value) == s
    decreases |next| - i
  {
    if i < |next| {
      AlphaBetaInRange(next[i], depth - 1, alpha, beta);
      var value' := Min(value, SearchScore(next[i], depth - 1, alpha, beta));
      var beta' := Min(beta, value');
      MinLoopOpen(s, next, i + 1, depth, alpha, beta', value');
    }
  }

  /** At the root (alpha = -infinity, beta = +infinity) the search never
      records a best move: an expanded node comes back unchanged, keeping
      whatever best move it had, and a terminal one loses it. */
  lemma RootNeverCuts(s: UltimateState, depth: int)
    requires ValidLastMove(s) && InRange(s.result)
    ensures var r := AlphaBeta(s, depth, NegInf, PosInf);
      r.bestMove == (if Expands(s, depth) then s.bestMove else None)
  {
    if Expands(s, depth) {
      AlphaBetaOpenWindow(s, depth, NegInf, PosInf);
    } else {
      AlphaBetaTerminal(s, depth, NegInf, PosInf);
    }
  }

  /** A newly recorded best move is an unsearched successor: it carries the
      parent's incoming score, not the score its own search produced, and no
      best move of its own. */
  lemma BestMoveIsUnsearched(s: UltimateState, depth: int, alpha: Score, beta: Score)
    requires ValidLastMove(s)
    ensures var m := AlphaBeta(s, depth, alpha, beta).bestMove;
      m.Some? && m != s.bestMove ==>
        Successor(s, m.value) && m.value.result == s.result && m.value.bestMove == None
  {
    var next := FindNextPossibilitiesUltimate(s);
    AlphaBetaShape(s, depth, alpha, beta);
    var m := AlphaBeta(s, depth, alpha, beta).bestMove;
    if m.Some? && m != s.bestMove {
      var j :| 0 <= j < |next| && next[j] == m.value;
      NextElementIsSuccessor(s, j);
    }
  }

  // ---------------------------------------------------------------------------
  // Move selection
  // ---------------------------------------------------------------------------

  /** `t` is `s` after a legal move of the side to move, whatever score `t`
      carries. */
  ghost predicate LegalMove(s: UltimateState, t: UltimateState) {
    var k, c := t.lastMove.boardCoordinate, t.lastMove.coordinate;
    && 0 <= k < 9 && 0 <= c < 9
    && Allowed(s, k)
    && s.ultimateBoard[k][c] == Empty
    && t == Mark(s, k, c).(result := t.result)
  }

  /** A successor of a node that differs from `s` only in score and best
      move is a legal move of `s`. */
  lemma SuccessorOfSameNode(s: UltimateState, searched: UltimateState, t: UltimateState)
    requires SameNode(s, searched) && Successor(searched, t)
    ensures LegalMove(s, t)
  {
  }

  /** `play`: search from the root, then return the recorded best move, or
      else a successor chosen at random, or `None` when there is none. The
      random choice is modelled as an arbitrary one. `node` is the state the
      search leaves in the caller's node: the same position, with a terminal
      root scored and stripped of its best move. Started without a best move,
      the result is `None` exactly when `s` has no successor, and otherwise a
      legal move of `s`. With a score in [-10, 10] as well, the search records
      no best move, so the result is always the random fallback; a stale best
      move, on the other hand, is returned as is. */
  method Play(s: UltimateState, depth: int) returns (node: UltimateState, r: Option<UltimateState>)
    requires ValidLastMove(s)
    ensures node == AlphaBeta(s, depth, NegInf, PosInf) && SameNode(s, node)
    ensures !Expands(s, depth) ==> node.bestMove == None && InRange(node.result)
    ensures Expands(s, depth) && InRange(s.result) ==> node == s
    ensures s.bestMove == None ==> (r == None <==> |FindNextPossibilitiesUltimate(s)| == 0)
    ensures s.bestMove == None && r.Some? ==> LegalMove(s, r.value) && r.value.bestMove == None
    ensures s.bestMove == None && InRange(s.result) && r.Some? ==>
      r.value in FindNextPossibilitiesUltimate(node)
    ensures s.bestMove != None && Expands(s, depth) && InRange(s.result) ==> r == s.bestMove
  {
    var searched := AlphaBeta(s, depth, NegInf, PosInf);
    node := searched;
    AlphaBetaShape(s, depth, NegInf, PosInf);
    NextCountIgnoresScore(s, searched);
    if InRange(s.result) {
      RootNeverCuts(s, depth);
    }
    if !Expands(s, depth) {
      AlphaBetaTerminal(s, depth, NegInf, PosInf);
      FindWinnerUltimateSpec(s.ultimateBoard);
    } else if InRange(s.result) {
      AlphaBetaOpenWindow(s, depth, NegInf, PosInf);
    }
    if searched.bestMove == None {
      var possibleMoves := FindNextPossibilitiesUltimate(searched);
      if |possibleMoves| != 0 {
        var i :| 0 <= i < |possibleMoves|;
        r := Some(possibleMoves[i]);
        NextElementIsSuccessor(searched, i);
        SuccessorOfSameNode(s, searched, possibleMoves[i]);
      } else {
        r := None;
      }
    } else {
      r := searched.bestMove;
      if s.bestMove == None {
        BestMoveIsUnsearched(s, depth, NegInf, PosInf);
        SuccessorOfSameNode(s, s, r.value);
      }
    }
  }
}

=== FILE: ultimate.dfy ===
/**
  The ultimate board, the search node and move generation.

  An ultimate board holds nine sub-boards. The cell a player marks decides
  the sub-board the other player must play in next. A node of the search
  records whose turn it is, its score, the board, the move that produced it
  and the successor the search picked, if any.
 */
module Ultimate {
  import opened Boards
  import opened Scores

  /** Nine sub-boards, indexed like the cells of a board. */
  type UltimateBoard = u: seq<Board> | |u| == 9
    witness [EmptyBoard(), EmptyBoard(), EmptyBoard(), EmptyBoard(), EmptyBoard(),
             EmptyBoard(), EmptyBoard(), EmptyBoard(), EmptyBoard()]

  /** A move: the sub-board played in and the cell played. A `boardCoordinate`
      of -1 means no move has been made, so any sub-board may be played. */
  datatype MoveCoordinate = MoveCoordinate(boardCoordinate: int, coordinate: int)

  /** An optional value, in place of a nil pointer. */
  datatype Option<+T> = None | Some(value: T)

  /** A search node. `bestMove` is the successor the search picked, if any. */
  datatype UltimateState = UltimateState(
    self: bool,
    result: Score,
    ultimateBoard: UltimateBoard,
    lastMove: MoveCoordinate,
    bestMove: Option<UltimateState>)

  /** `emptyUltimateBoard`: every cell of every sub-board is empty. */
  function EmptyUltimateBoard(): (u: UltimateBoard)
    ensures forall i, j :: 0 <= i < 9 && 0 <= j < 9 ==> u[i][j] == Empty
  {
    seq(9, _ => EmptyBoard())
  }

  // ---------------------------------------------------------------------------
  // Win detection on the ultimate board
  // ---------------------------------------------------------------------------

  /** Reference definition of the meta-board: cell `i` is the winner of
      sub-board `i`. */
  ghost function MetaBoard(u: UltimateBoard): Board {
    seq(9, i requires 0 <= i < 9 => FindWinner(u[i]))
  }

  /** The loop of `findWinnerUltimate` from index `i` on: writes the winner of
      each remaining sub-board into `meta`. */
  function FillWinners(u: UltimateBoard, i: nat, meta: Board): Board
    requires i <= 9
    decreases 9 - i
  {
    if i == 9 then meta else FillWinners(u, i + 1, meta[i := FindWinner(u[i])])
  }

  /** The loop keeps the cells before `i` and writes each later one with the
      winner of its sub-board. */
  lemma {:induction false} FillWinnersSpec(u: UltimateBoard, i: nat, meta: Board)
    requires i <= 9
    ensures var r := FillWinners(u, i, meta);
      && (forall k :: 0 <= k < i ==> r[k] == meta[k])
      && (forall k :: i <= k < 9 ==> r[k] == FindWinner(u[k]))
    decreases 9 - i
  {
    if i < 9 {
      FillWinnersSpec(u, i + 1, meta[i := FindWinner(u[i])]);
    }
  }

  /** `findWinnerUltimate`: the winner of the meta-board of sub-board winners.
      What it reports is stated by `FindWinnerUltimateSpec`. */
  function FindWinnerUltimate(u: UltimateBoard): Cell {
    FindWinner(FillWinners(u, 0, EmptyBoard()))
  }

  /** The ultimate board is won by SELF exactly when SELF holds a line of won
      sub-boards; by OPPONENT exactly when OPPONENT does and SELF does not. */
  lemma FindWinnerUltimateSpec(u: UltimateBoard)
    ensures FindWinnerUltimate(u) == FindWinner(MetaBoard(u))
    ensures FindWinnerUltimate(u) == Self <==> Wins(Self, MetaBoard(u))
    ensures FindWinnerUltimate(u) == Opponent <==>
      !Wins(Self, MetaBoard(u)) && Wins(Opponent, MetaBoard(u))
    ensures FindWinnerUltimate(u) == Empty <==>
      !Wins(Self, MetaBoard(u)) && !Wins(Opponent, MetaBoard(u))
  {
    FillWinnersSpec(u, 0, EmptyBoard());
    assert FillWinners(u, 0, EmptyBoard()) == MetaBoard(u);
    FindWinnerSpec(MetaBoard(u));
  }

  // ---------------------------------------------------------------------------
  // Move generation
  // ---------------------------------------------------------------------------

  /** `player`: the mark of the side to move. */
  function Player(self: bool): (p: Cell)
    ensures p != Empty
    ensures p == Self <==> self
  {
    if self then Self else Opponent
  }

  /** The loop of `nextBoards` from cell `i` on. Built from the right, which
      yields the same lists as the source's left-to-right appends. */
  function NextBoardsFrom(p: Cell, b: Board, i: nat): (seq<Board>, seq<int>)
    requires i <= 9
    decreases 9 - i
  {
    if i == 9 then ([], [])
    else
      var rest := NextBoardsFrom(p, b, i + 1);
      if b[i] == Empty then ([b[i := p]] + rest.0, [i] + rest.1) else rest
  }

  /** From cell `i` on, the loop lists each empty cell once, in ascending
      order, paired with the board that has that cell marked `p`. */
  lemma {:induction false} NextBoardsFromSpec(p: Cell, b: Board, i: nat)
    requires i <= 9
    ensures var r := NextBoardsFrom(p, b, i);
      && |r.0| == |r.1| == Count(Empty, b[i..])
      && (forall k :: 0 <= k < |r.1| ==>
            i <= r.1[k] < 9 && b[r.1[k]] == Empty && r.0[k] == b[r.1[k] := p])
      && (forall k1, k2 :: 0 <= k1 < k2 < |r.1| ==> r.1[k1] < r.1[k2])
      && (forall c :: i <= c < 9 && b[c] == Empty ==> c in r.1)
    decreases 9 - i
  {
    if i < 9 {
      NextBoardsFromSpec(p, b, i + 1);
      assert b[i..][1..] == b[i + 1..];
    }
  }

  /** `nextBoards`: one board per empty cell with that cell marked `p`,
      paired with the list of those cells. */
  function NextBoards(p: Cell, b: Board): (seq<Board>, seq<int>) {
    NextBoardsFrom(p, b, 0)
  }

  /** `nextBoards` lists every empty cell exactly once, in ascending order,
      each with the board that has that cell marked `p`. */
  lemma NextBoardsSpec(p: Cell, b: Board)
    ensures var r := NextBoards(p, b);
      && |r.0| == |r.1| == Count(Empty, b)
      && (forall k :: 0 <= k < |r.1| ==>
            0 <= r.1[k] < 9 && b[r.1[k]] == Empty && r.0[k] == b[r.1[k] := p])
      && (forall k1, k2 :: 0 <= k1 < k2 < |r.1| ==> r.1[k1] < r.1[k2])
      && (forall c :: 0 <= c < 9 && b[c] == Empty ==> c in r.1)
  {
    NextBoardsFromSpec(p, b, 0);
    assert b[0..] == b;
  }

  /** A state the move generator can index: either no move has been made, or
      the last cell played names a sub-board. */
  predicate ValidLastMove(s: UltimateState) {
    s.lastMove.boardCoordinate == -1 || 0 <= s.lastMove.coordinate < 9
  }

  /** The forced-sub-board rule: sub-board `k` may be played in from `s`. */
  predicate Allowed(s: UltimateState, k: int) {
    s.lastMove.boardCoordinate == -1 || k == s.lastMove.coordinate
  }

  /** `s` after the side to move marks cell `c` of sub-board `k`: only that
      cell changes, the turn flips, the move is recorded, the best move is
      cleared and the score is kept. */
  function Mark(s: UltimateState, k: int, c: int): UltimateState
    requires 0 <= k < 9 && 0 <= c < 9
  {
    s.(ultimateBoard := s.ultimateBoard[k := s.ultimateBoard[k][c := Player(s.self)]],
       self := !s.self,
       lastMove := MoveCoordinate(k, c),
       bestMove := None)
  }

  /** `t` is `s` after the side to move marks the empty cell named by
      `t.lastMove`. */
  ghost predicate Places(s: UltimateState, t: UltimateState) {
    var k, c := t.lastMove.boardCoordinate, t.lastMove.coordinate;
    && 0 <= k < 9 && 0 <= c < 9
    && s.ultimateBoard[k][c] == Empty
    && t == Mark(s, k, c)
  }

  /** `t` is a legal successor of `s`: a placement in an allowed sub-board
      that inherits the score of `s`. */
  ghost predicate Successor(s: UltimateState, t: UltimateState) {
    Places(s, t) && Allowed(s, t.lastMove.boardCoordinate)
  }

  /** Every element of `r` is a legal successor of `s`. */
  ghost predicate AllSuccessors(s: UltimateState, r: seq<UltimateState>) {
    forall j :: 0 <= j < |r| ==> Successor(s, r[j])
  }

  /** The moves of `r` strictly ascend by sub-board, then cell; in particular
      no move occurs twice. */
  predicate InGenerationOrder(r: seq<UltimateState>) {
    forall j1, j2 :: 0 <= j1 < j2 < |r| ==> Rank(r[j1].lastMove) < Rank(r[j2].lastMove)
  }

  /** Every empty cell of every sub-board `s` allows has its move in `r`. */
  ghost predicate CoversAllowedCells(s: UltimateState, r: seq<UltimateState>) {
    forall b, c :: 0 <= b < 9 && 0 <= c < 9 && Allowed(s, b) && s.ultimateBoard[b][c] == Empty ==>
      exists j :: 0 <= j < |r| && r[j].lastMove == MoveCoordinate(b, c)
  }

  /** Position of a move in the generation order: sub-board, then cell. */
  function Rank(m: MoveCoordinate): int {
    9 * m.boardCoordinate + m.coordinate
  }

  /** The body of the loop of `possibleUltimateState`: a copy of `s` with
      sub-board `k` replaced by `board`, the turn flipped, the move (`k`, `c`)
      recorded and no best move. */
  function Clone(s: UltimateState, k: int, c: int, board: Board): UltimateState
    requires 0 <= k < 9
  {
    s.(ultimateBoard := s.ultimateBoard[k := board],
       self := !s.self,
       lastMove := MoveCoordinate(k, c),
       bestMove := None)
  }

  /** A copy whose new sub-board is the old one with cell `c` marked is the
      placement at (`k`, `c`). */
  lemma CloneIsMark(s: UltimateState, k: int, c: int, board: Board)
    requires 0 <= k < 9 && 0 <= c < 9
    requires board == s.ultimateBoard[k][c := Player(s.self)]
    ensures Clone(s, k, c, board) == Mark(s, k, c)
  {
  }

  /** `possibleUltimateState`: the states reached by playing in sub-board `k`,
      one per empty cell of it. What they are is stated by
      `PossibleUltimateStateSpec`. */
  function PossibleUltimateState(s: UltimateState, k: int): seq<UltimateState>
    requires 0 <= k < 9
  {
    var next := NextBoards(Player(s.self), s.ultimateBoard[k]);
    NextBoardsSpec(Player(s.self), s.ultimateBoard[k]);
    seq(|next.0|, j requires 0 <= j < |next.0| => Clone(s, k, next.1[j], next.0[j]))
  }

  /** The states of `possibleUltimateState` are the placements in sub-board
      `k`, one per empty cell, in ascending cell order. */
  lemma PossibleUltimateStateSpec(s: UltimateState, k: int)
    requires 0 <= k < 9
    ensures var r := PossibleUltimateState(s, k);
      && |r| == Count(Empty, s.ultimateBoard[k])
      && (forall j :: 0 <= j < |r| ==> Places(s, r[j]) && r[j].lastMove.boardCoordinate == k)
      && (forall j1, j2 :: 0 <= j1 < j2 < |r| ==>
            r[j1].lastMove.coordinate < r[j2].lastMove.coordinate)
      && (forall c :: 0 <= c < 9 && s.ultimateBoard[k][c] == Empty ==>
            exists j :: 0 <= j < |r| && r[j].lastMove.coordinate == c)
  {
    var next := NextBoards(Player(s.self), s.ultimateBoard[k]);
    NextBoardsSpec(Player(s.self), s.ultimateBoard[k]);
    var r := PossibleUltimateState(s, k);
    ClonesArePlacements(s, k, next.0, next.1, r);
    ClonesCoverEmptyCells(s, k, next.1, r);
  }

  /** Each state built from a generated board is the placement at its cell. */
  lemma ClonesArePlacements(s: UltimateState, k: int, boards: seq<Board>, cells: seq<int>,
                            r: seq<UltimateState>)
    requires 0 <= k < 9
    requires |r| == |boards| == |cells|
    requires forall j :: 0 <= j < |cells| ==>
      0 <= cells[j] < 9 && s.ultimateBoard[k][cells[j]] == Empty
      && boards[j] == s.ultimateBoard[k][cells[j] := Player(s.self)]
    requires forall j :: 0 <= j < |r| ==> r[j] == Clone(s, k, cells[j], boards[j])
    ensures forall j :: 0 <= j < |r| ==> Places(s, r[j]) && r[j].lastMove.boardCoordinate == k
  {
    forall j | 0 <= j < |r|
      ensures Places(s, r[j]) && r[j].lastMove.boardCoordinate == k
    {
      CloneIsMark(s, k, cells[j], boards[j]);
    }
  }

  /** Every empty cell of sub-board `k` has a generated state. */
  lemma ClonesCoverEmptyCells(s: UltimateState, k: int, cells: seq<int>, r: seq<UltimateState>)
    requires 0 <= k < 9
    requires |r| == |cells|
    requires forall c :: 0 <= c < 9 && s.ultimateBoard[k][c] == Empty ==> c in cells
    requires forall j :: 0 <= j < |r| ==> r[j].lastMove == MoveCoordinate(k, cells[j])
    ensures forall c :: 0 <= c < 9 && s.ultimateBoard[k][c] == Empty ==>
      exists j :: 0 <= j < |r| && r[j].lastMove.coordinate == c
  {
    forall c | 0 <= c < 9 && s.ultimateBoard[k][c] == Empty
      ensures exists j :: 0 <= j < |r| && r[j].lastMove.coordinate == c
    {
      var j :| 0 <= j < |cells| && cells[j] == c;
      assert r[j].lastMove.coordinate == c;
    }
  }

  /** The unconstrained case of `findNextPossibilitiesUltimate`, from
      sub-board `k` on: the successors of each sub-board, in order. */
  function FreeChoice(s: UltimateState, k: nat): seq<UltimateState>
    requires k <= 9
    decreases 9 - k
  {
    if k == 9 then [] else PossibleUltimateState(s, k) + FreeChoice(s, k + 1)
  }

  /** The free-choice successors from sub-board `k` on are the placements in
      sub-boards `k` to 8, one per empty cell, in ascending (sub-board, cell)
      order. */
  lemma {:induction false} FreeChoiceSpec(s: UltimateState, k: nat)
    requires k <= 9
    ensures var r := FreeChoice(s, k);
      && |r| == TotalEmpty(s.ultimateBoard[k..])
      && (forall j :: 0 <= j < |r| ==> Places(s, r[j]) && k <= r[j].lastMove.boardCoordinate)
      && (forall j1, j2 :: 0 <= j1 < j2 < |r| ==> Rank(r[j1].lastMove) < Rank(r[j2].lastMove))
      && (forall b, c :: k <= b < 9 && 0 <= c < 9 && s.ultimateBoard[b][c] == Empty ==>
            exists j :: 0 <= j < |r| && r[j].lastMove == MoveCoordinate(b, c))
    decreases 9 - k
  {
    if k < 9 {
      var here := PossibleUltimateState(s, k);
      var rest := FreeChoice(s, k + 1);
      PossibleUltimateStateSpec(s, k);
      FreeChoiceSpec(s, k + 1);
      assert s.ultimateBoard[k..][1..] == s.ultimateBoard[k + 1..];
      ConcatPlaces(s, here, rest, k);
      ConcatAscending(here, rest, k);
      ConcatComplete(s, here, rest, k);
    }
  }

  /** Appending the successors of later sub-boards keeps every element a
      placement at or after sub-board `k`. */
  lemma ConcatPlaces(s: UltimateState, here: seq<UltimateState>, rest: seq<UltimateState>, k: int)
    requires forall j :: 0 <= j < |here| ==> Places(s, here[j]) && here[j].lastMove.boardCoordinate == k
    requires forall j :: 0 <= j < |rest| ==> Places(s, rest[j]) && k + 1 <= rest[j].lastMove.boardCoordinate
    ensures forall j :: 0 <= j < |here + rest| ==>
      Places(s, (here + rest)[j]) && k <= (here + rest)[j].lastMove.boardCoordinate
  {
    forall j | 0 <= j < |here + rest|
      ensures Places(s, (here + rest)[j]) && k <= (here + rest)[j].lastMove.boardCoordinate
    {
      if j < |here| {
        assert (here + rest)[j] == here[j];
      } else {
        assert (here + rest)[j] == rest[j - |here|];
      }
    }
  }

  /** Moves of sub-board `k` in ascending cell order, followed by moves of
      later sub-boards in ascending rank, are in ascending rank. */
  lemma ConcatAscending(here: seq<UltimateState>, rest: seq<UltimateState>, k: int)
    requires forall j :: 0 <= j < |here| ==>
      here[j].lastMove.boardCoordinate == k && 0 <= here[j].lastMove.coordinate < 9
    requires forall j1, j2 :: 0 <= j1 < j2 < |here| ==>
      here[j1].lastMove.coordinate < here[j2].lastMove.coordinate
    requires forall j :: 0 <= j < |rest| ==>
      k + 1 <= rest[j].lastMove.boardCoordinate && 0 <= rest[j].lastMove.coordinate
    requires forall j1, j2 :: 0 <= j1 < j2 < |rest| ==> Rank(rest[j1].lastMove) < Rank(rest[j2].lastMove)
    ensures forall j1, j2 :: 0 <= j1 < j2 < |here + rest| ==>
      Rank((here + rest)[j1].lastMove) < Rank((here + rest)[j2].lastMove)
  {
    var r := here + rest;
    forall j1, j2 | 0 <= j1 < j2 < |r|
      ensures Rank(r[j1].lastMove) < Rank(r[j2].lastMove)
    {
      if j2 < |here| {
        assert r[j1] == here[j1] && r[j2] == here[j2];
      } else if j1 < |here| {
        assert r[j1] == here[j1] && r[j2] == rest[j2 - |here|];
      } else {
        assert r[j1] == rest[j1 - |here|] && r[j2] == rest[j2 - |here|];
      }
    }
  }

  /** Every empty cell of sub-boards `k` to 8 has its move in the
      concatenation. */
  lemma ConcatComplete(s: UltimateState, here: seq<UltimateState>, rest: seq<UltimateState>, k: int)
    requires 0 <= k < 9
    requires forall j :: 0 <= j < |here| ==> here[j].lastMove.boardCoordinate == k
    requires forall c :: 0 <= c < 9 && s.ultimateBoard[k][c] == Empty ==>
      exists j :: 0 <= j < |here| && here[j].lastMove.coordinate == c
    requires forall b, c :: k + 1 <= b < 9 && 0 <= c < 9 && s.ultimateBoard[b][c] == Empty ==>
      exists j :: 0 <= j < |rest| && rest[j].lastMove == MoveCoordinate(b, c)
    ensures forall b, c :: k <= b < 9 && 0 <= c < 9 && s.ultimateBoard[b][c] == Empty ==>
      exists j :: 0 <= j < |here + rest| && (here + rest)[j].lastMove == MoveCoordinate(b, c)
  {
    var r := here + rest;
    forall b, c | k <= b < 9 && 0 <= c < 9 && s.ultimateBoard[b][c] == Empty
      ensures exists j :: 0 <= j < |r| && r[j].lastMove == MoveCoordinate(b, c)
    {
      if b == k {
        var j :| 0 <= j < |here| && here[j].lastMove.coordinate == c;
        assert r[j] == here[j];
      } else {
        var j :| 0 <= j < |rest| && rest[j].lastMove == MoveCoordinate(b, c);
        assert r[|here| + j] == rest[j];
      }
    }
  }

  /** `findNextPossibilitiesUltimate`: the successors of `s`. What they are
      is stated by `NextPossibilitiesSpec`. */
  function FindNextPossibilitiesUltimate(s: UltimateState): seq<UltimateState>
    requires ValidLastMove(s)
  {
    if s.lastMove.boardCoordinate == -1 then FreeChoice(s, 0)
    else PossibleUltimateState(s, s.lastMove.coordinate)
  }

  /** The successors of `s` are exactly its legal successors, in ascending
      (sub-board, cell) order. Without a last move any sub-board may be
      played; otherwise only sub-board `lastMove.coordinate`, whether or not
      it is already won, and nothing at all when it is full. */
  lemma NextPossibilitiesSpec(s: UltimateState)
    requires ValidLastMove(s)
    ensures var r := FindNextPossibilitiesUltimate(s);
      && AllSuccessors(s, r)
      && InGenerationOrder(r)
      && CoversAllowedCells(s, r)
  {
    var r := FindNextPossibilitiesUltimate(s);
    if s.lastMove.boardCoordinate == -1 {
      FreeChoiceSpec(s, 0);
      FreeChoiceAreSuccessors(s, r);
    } else {
      PossibleUltimateStateSpec(s, s.lastMove.coordinate);
      ForcedChoiceAreSuccessors(s, r);
    }
  }

  /** Successor `i` of `s` is a legal successor: it keeps the score of `s`,
      can itself be expanded and has exactly one empty cell fewer. */
  lemma NextElementIsSuccessor(s: UltimateState, i: int)
    requires ValidLastMove(s) && 0 <= i < |FindNextPossibilitiesUltimate(s)|
    ensures var t := FindNextPossibilitiesUltimate(s)[i];
      && Successor(s, t)
      && t.result == s.result
      && ValidLastMove(t)
      && TotalEmpty(t.ultimateBoard) + 1 == TotalEmpty(s.ultimateBoard)
  {
    var t := FindNextPossibilitiesUltimate(s)[i];
    NextPossibilitiesSpec(s);
    assert Successor(s, t);
    PlacesFillsACell(s, t);
  }

  /** What the search needs of a list of successors of `s`: each can be
      expanded, inherits the score of `s`, and has fewer empty cells. */
  predicate ChildrenOf(s: UltimateState, next: seq<UltimateState>) {
    forall j :: 0 <= j < |next| ==>
      && ValidLastMove(next[j])
      && next[j].result == s.result
      && TotalEmpty(next[j].ultimateBoard) < TotalEmpty(s.ultimateBoard)
  }

  /** The generated successors are children in the sense of `ChildrenOf`. */
  lemma NextAreChildren(s: UltimateState)
    requires ValidLastMove(s)
    ensures ChildrenOf(s, FindNextPossibilitiesUltimate(s))
  {
    forall j | 0 <= j < |FindNextPossibilitiesUltimate(s)| {
      NextElementIsSuccessor(s, j);
    }
  }

  /** Without a last move there are as many successors as empty cells on
      the whole board. */
  lemma FreeChoiceCount(s: UltimateState)
    requires s.lastMove.boardCoordinate == -1
    ensures |FindNextPossibilitiesUltimate(s)| == TotalEmpty(s.ultimateBoard)
  {
    FreeChoiceSpec(s, 0);
    assert s.ultimateBoard[0..] == s.ultimateBoard;
  }

  /** After a move there are as many successors as empty cells in the forced
      sub-board. */
  lemma ForcedChoiceCount(s: UltimateState)
    requires s.lastMove.boardCoordinate != -1 && 0 <= s.lastMove.coordinate < 9
    ensures |FindNextPossibilitiesUltimate(s)| == Count(Empty, s.ultimateBoard[s.lastMove.coordinate])
  {
    PossibleUltimateStateSpec(s, s.lastMove.coordinate);
  }

  /** The number of successors depends only on the board and the last move. */
  lemma NextCountIgnoresScore(s: UltimateState, t: UltimateState)
    requires ValidLastMove(s)
    requires t.ultimateBoard == s.ultimateBoard && t.lastMove == s.lastMove
    ensures |FindNextPossibilitiesUltimate(t)| == |FindNextPossibilitiesUltimate(s)|
  {
    if s.lastMove.boardCoordinate == -1 {
      FreeChoiceCount(s);
      FreeChoiceCount(t);
    } else {
      ForcedChoiceCount(s);
      ForcedChoiceCount(t);
    }
  }

  /** Without a last move every placement is a legal successor. */
  lemma FreeChoiceAreSuccessors(s: UltimateState, r: seq<UltimateState>)
    requires s.lastMove.boardCoordinate == -1
    requires forall j :: 0 <= j < |r| ==> Places(s, r[j]) && 0 <= r[j].lastMove.boardCoordinate
    requires forall j1, j2 :: 0 <= j1 < j2 < |r| ==> Rank(r[j1].lastMove) < Rank(r[j2].lastMove)
    requires forall b, c :: 0 <= b < 9 && 0 <= c < 9 && s.ultimateBoard[b][c] == Empty ==>
      exists j :: 0 <= j < |r| && r[j].lastMove == MoveCoordinate(b, c)
    ensures AllSuccessors(s, r)
    ensures InGenerationOrder(r)
    ensures CoversAllowedCells(s, r)
  {
  }

  /** The placements in the forced sub-board are the legal successors, in
      ascending rank, covering its every empty cell. */
  lemma ForcedChoiceAreSuccessors(s: UltimateState, r: seq<UltimateState>)
    requires s.lastMove.boardCoordinate != -1 && 0 <= s.lastMove.coordinate < 9
    requires forall j :: 0 <= j < |r| ==>
      Places(s, r[j]) && r[j].lastMove.boardCoordinate == s.lastMove.coordinate
    requires forall j1, j2 :: 0 <= j1 < j2 < |r| ==>
      r[j1].lastMove.coordinate < r[j2].lastMove.coordinate
    requires forall c :: 0 <= c < 9 && s.ultimateBoard[s.lastMove.coordinate][c] == Empty ==>
      exists j :: 0 <= j < |r| && r[j].lastMove.coordinate == c
    ensures AllSuccessors(s, r)
    ensures InGenerationOrder(r)
    ensures CoversAllowedCells(s, r)
  {
    var k := s.lastMove.coordinate;
    forall j1, j2 | 0 <= j1 < j2 < |r| ensures Rank(r[j1].lastMove) < Rank(r[j2].lastMove) {
      assert r[j1].lastMove.boardCoordinate == k && r[j2].lastMove.boardCoordinate == k;
    }
    forall b, c | 0 <= b < 9 && 0 <= c < 9 && Allowed(s, b) && s.ultimateBoard[b][c] == Empty
      ensures exists j :: 0 <= j < |r| && r[j].lastMove == MoveCoordinate(b, c)
    {
      var j :| 0 <= j < |r| && r[j].lastMove.coordinate == c;
      assert r[j].lastMove == MoveCoordinate(b, c);
    }
  }

  // ---------------------------------------------------------------------------
  // Counting empty cells
  // ---------------------------------------------------------------------------

  /** Number of empty cells over a sequence of sub-boards. */
  function TotalEmpty(u: seq<seq<Cell>>): nat {
    if |u| == 0 then 0 else Count(Empty, u[0]) + TotalEmpty(u[1..])
  }

  /** Marking one empty cell removes exactly one empty cell from the total. */
  lemma {:induction false} TotalEmptyFill(u: seq<seq<Cell>>, k: int, c: int, p: Cell)
    requires 0 <= k < |u| && 0 <= c < |u[k]| && u[k][c] == Empty && p != Empty
    ensures TotalEmpty(u[k := u[k][c := p]]) + 1 == TotalEmpty(u)
  {
    if k == 0 {
      CountEmptyFill(u[0], c, p);
      assert u[k := u[k][c := p]][1..] == u[1..];
    } else {
      TotalEmptyFill(u[1..], k - 1, c, p);
      assert u[k := u[k][c := p]][1..] == u[1..][k - 1 := u[k][c := p]];
    }
  }

  /** Every placement fills one empty cell, so the search tree is finite. */
  lemma PlacesFillsACell(s: UltimateState, t: UltimateState)
    requires Places(s, t)
    ensures TotalEmpty(t.ultimateBoard) + 1 == TotalEmpty(s.ultimateBoard)
  {
    TotalEmptyFill(s.ultimateBoard, t.lastMove.boardCoordinate, t.lastMove.coordinate, Player(s.self));
  }

  /** Sub-boards whose every cell is empty count all their cells. */
  lemma {:induction false} TotalEmptyAllEmpty(u: seq<seq<Cell>>)
    requires forall i :: 0 <= i < |u| ==> |u[i]| == 9
    requires forall i, j :: 0 <= i < |u| && 0 <= j < |u[i]| ==> u[i][j] == Empty
    ensures TotalEmpty(u) == 9 * |u|
  {
    if |u| > 0 {
      CountEmptyAllEmpty(u[0]);
      TotalEmptyAllEmpty(u[1..]);
    }
  }

  // ---------------------------------------------------------------------------
  // Properties of move generation
  // ---------------------------------------------------------------------------

  /** At the start of the game (the board of `emptyUltimateBoard` and no last
      move, as in the state built with the move (-1, -1)) every one of the
      81 cells is a successor. */
  lemma FirstMoveHas81Successors(s: UltimateState)
    requires s.lastMove.boardCoordinate == -1 && s.ultimateBoard == EmptyUltimateBoard()
    ensures |FindNextPossibilitiesUltimate(s)| == 81
  {
    TotalEmptyAllEmpty(s.ultimateBoard);
    FreeChoiceCount(s);
  }

  /** A placement flips the turn, clears the best move, keeps the score, and
      changes exactly one cell: an empty cell of the board becomes the mark of
      the side to move. */
  lemma PlacementChangesOneCell(s: UltimateState, t: UltimateState)
    requires Places(s, t)
    ensures t.self == !s.self && t.bestMove == None && t.result == s.result
    ensures var k, c := t.lastMove.boardCoordinate, t.lastMove.coordinate;
      && 0 <= k < 9 && 0 <= c < 9
      && s.ultimateBoard[k][c] == Empty && t.ultimateBoard[k][c] == Player(s.self)
      && (forall k', c' :: 0 <= k' < 9 && 0 <= c' < 9 && (k' != k || c' != c) ==>
            t.ultimateBoard[k'][c'] == s.ultimateBoard[k'][c'])
  {
  }

  /** Whether the forced sub-board is already won is not checked: as long as
      it has an empty cell, there is a successor in it. */
  lemma WonForcedBoardStillPlayed(s: UltimateState, c: int)
    requires s.lastMove.boardCoordinate != -1 && 0 <= s.lastMove.coordinate < 9
    requires FindWinner(s.ultimateBoard[s.lastMove.coordinate]) != Empty
    requires 0 <= c < 9 && s.ultimateBoard[s.lastMove.coordinate][c] == Empty
    ensures |FindNextPossibilitiesUltimate(s)| > 0
  {
    NextPossibilitiesSpec(s);
    assert Allowed(s, s.lastMove.coordinate);
  }

  /** A full forced sub-board yields no successors, even when other
      sub-boards still have empty cells. */
  lemma FullForcedBoardHasNoSuccessors(s: UltimateState)
    requires s.lastMove.boardCoordinate != -1 && 0 <= s.lastMove.coordinate < 9
    requires forall c :: 0 <= c < 9 ==> s.ultimateBoard[s.lastMove.coordinate][c] != Empty
    ensures FindNextPossibilitiesUltimate(s) == []
  {
    NextPossibilitiesSpec(s);
  }

  /** A forced sub-board with a single empty cell yields exactly that move. */
  lemma SingleEmptyCellHasOneSuccessor(s: UltimateState, c: int)
    requires s.lastMove.boardCoordinate != -1 && 0 <= s.lastMove.coordinate < 9
    requires 0 <= c < 9 && s.ultimateBoard[s.lastMove.coordinate][c] == Empty
    requires forall d :: 0 <= d < 9 && d != c ==> s.ultimateBoard[s.lastMove.coordinate][d] != Empty
    ensures |FindNextPossibilitiesUltimate(s)| == 1
    ensures FindNextPossibilitiesUltimate(s)[0].lastMove == MoveCoordinate(s.lastMove.coordinate, c)
  {
    var k := s.lastMove.coordinate;
    var r := FindNextPossibilitiesUltimate(s);
    NextPossibilitiesSpec(s);
    assert Allowed(s, k);
    var j :| 0 <= j < |r| && r[j].lastMove == MoveCoordinate(k, c);
  }
}
